=== FILE: README.md ===
# Focus Room scheduler — a Dafny model of the booking core

Focus Room is a single-room booking application. Users pick a day, a half-hour
start slot and a duration on a form. The data layer checks the `bookings`
table for a clash and inserts the booking. The dashboard lists all bookings,
split into "Upcoming" and "Past Bookings" tabs, and lets an owner or an admin
cancel an upcoming one. A countdown shows the time left until a booking ends.
Sign-in is a mock over two hard-coded users.

This project models that core as pure functions over immutable data:

- `BookingTypes` (`booking_types.dfy`): the `Booking` and
  `CreateBookingParams` records, a row of the `bookings` table, instants as
  integer milliseconds, and the half-open overlap relation.
- `BookingApi` (`api.ts`): duration rounding, the conflict query exactly as
  written, creation, cancellation and the sorted listing. The table is a
  `seq<Row>`. Each database call takes a flag saying whether it returned an
  error. The id and creation instant the database assigns are parameters.
- `CorrectedBooking`: the conflict check as evidently intended (see
  Findings), and the proof that it keeps the table free of overlapping
  bookings over any sequence of cancellations and of creations whose
  conflict query succeeds. The fail-open query is kept as written, and a
  creation whose conflict query errors can still insert an overlap.
- `Auth` (`AuthContext.tsx`): `MOCK_USERS`, `login`, `register`, `logout`.
- `Dashboard` (`Dashboard.tsx`): which listing is fetched, the two tabs, and
  the local list update after a cancellation.
- `BookingList` (`BookingList.tsx`): the duration label and a parser that
  accepts exactly the labels it writes, the card badge, when the cancel button shows, and the empty
  list message.
- `BookingTimer` (`BookingTimer.tsx`): the hours/minutes/seconds
  decomposition, the tick state machine and the rendered text.
- `BookingForm` (`BookingForm.tsx`): `TIME_SLOTS`, `DURATION_OPTIONS`, the
  schema's rules, attendee splitting, and the request the form submits.
- `Navbar` (`Navbar.tsx`): `getInitials`.
- Support modules: `Wrappers` (`Option`, `Result`), `Seqs` (an
  order-preserving filter and its laws) and `Text` (ASCII `String(n)`,
  `Number`, `padStart`, `split`/`join`, `trim`, `toUpperCase`, and `length`
  counted in UTF-16 code units).

## Model

| member | source | states |
|---|---|---|
| BookingApi.CalculateDuration | src/lib/api.ts:45-49 | the result is the whole number of minutes nearest to end minus start, within half a minute either way, with halves rounded up as `Math.round` does |
| BookingApi.DurationOfWholeMinutes | src/lib/api.ts:45-49 | an interval of exactly k minutes is reported as k minutes, for every integer k |
| BookingApi.CheckBookingConflicts | src/lib/api.ts:107-127 | a conflict is reported exactly when the query succeeds and some stored row starts no later than the candidate ends OR ends no earlier than it starts; a query error reports no conflict |
| BookingApi.OverlapIsReported | src/lib/api.ts:112-122 | every stored booking that really overlaps the candidate is reported while the query succeeds |
| BookingApi.EveryWellFormedRowMatches | src/lib/api.ts:115 | when both intervals are well formed, the filter matches every stored row, wherever it lies in time |
| BookingApi.ConflictIffStoreNonEmpty | src/lib/api.ts:112-122 | on a table of well-formed rows a conflict is reported exactly when the query succeeds and the table is not empty |
| BookingApi.InsertBooking | src/lib/api.ts:60-76 | the insert fails exactly when the database reports an error; otherwise the table gains exactly the new row, at its end |
| BookingApi.CreateBooking | src/lib/api.ts:52-104 | a scheduling conflict is raised exactly when the check reports one; creation succeeds exactly when there is no conflict and the insert works; the table then keeps every old row and gains one row with the database's id and timestamp and the request's title, description, booker, instants and attendees (absent attendees stored as []); the returned booking carries the request's fields, user id 'guest', attendees defaulting to [], and the requested duration unless it is absent or 0, in which case the duration computed from the instants |
| BookingApi.CreateSucceedsOnlyOnEmptyStore | src/lib/api.ts:55-58 | with well-formed intervals a booking is only ever created in an empty table or after the conflict query itself failed |
| BookingApi.FailedConflictQueryAdmitsAnything | src/lib/api.ts:123-126 | when the conflict query fails, any request reaches the insert and, if the insert works, is created |
| BookingApi.CancelBooking | src/lib/api.ts:130-146 | cancellation fails exactly when the delete reports an error; otherwise the remaining rows are exactly the rows with a different id |
| BookingApi.CancelUnknownIdKeepsStore | src/lib/api.ts:131-135 | deleting an id no row carries is not an error and leaves the table as it was |
| BookingApi.CancelKeepsOrder | src/lib/api.ts:131-135 | the remaining rows keep their relative order: cancelling in a concatenation is the concatenation of cancelling in each part |
| BookingApi.SortByStart | src/lib/api.ts:12 | the listing order is ascending by start time and is a permutation of the table |
| BookingApi.NormalizedPermutation | src/lib/api.ts:19-30 | mapping the rows of a permutation of the table lists every row and nothing that is not a row |
| BookingApi.NormalizeAllPermutation | src/lib/api.ts:19-30 | mapping two orderings of the same rows gives the same bookings, each as often as its row occurs |
| BookingApi.GetBookings | src/lib/api.ts:7-36 | a failed query gives []; otherwise the listing holds exactly one booking per row, counted with repeats, ascending by start, each with user id 'guest' and a duration recomputed from its instants |
| BookingApi.GetUserBookings | src/lib/api.ts:39-42 | whatever the user id, the result is [] on a failed query and otherwise one booking per row of the whole table, ascending by start |
| BookingApi.UserBookingsIgnoreUserId | src/lib/api.ts:39-42 | the user id is ignored: every user receives the full listing |
| BookingApi.CreatedBookingIsListed | src/lib/api.ts:52-90 | a booking just created appears in the next successful listing, with its duration recomputed from its instants |
| CorrectedBooking.CheckOverlap | src/lib/api.ts:112-122 | the intended check reports a conflict exactly when the query succeeds and some stored booking overlaps the candidate as half-open intervals; anything it reports, the check as written reports too |
| CorrectedBooking.CreateBookingCorrected | src/lib/api.ts:52-76 | creation with the intended check succeeds exactly when the insert works and the query failed or nothing overlaps; a success is the same result the code produces once past the check, and a successful checked creation keeps a non-overlapping table non-overlapping |
| CorrectedBooking.CancelKeepsNonOverlapping | src/lib/api.ts:130-135 | cancellation keeps a non-overlapping table non-overlapping |
| CorrectedBooking.RunKeepsNonOverlapping | src/lib/api.ts:52-146 | any sequence of cancellations and of checked creations whose conflict query succeeds, failed ones included, keeps the table free of overlapping bookings |
| CorrectedBooking.FailOpenAdmitsOverlap | src/lib/api.ts:123-126 | with 10:00-11:00 stored and the conflict query erroring, even the intended check lets 10:30-11:30 in, and the table then holds an overlap |
| CorrectedBooking.TouchingBookingRejectedAsWritten | src/lib/api.ts:115 | with 10:00-11:00 stored, the code rejects 11:00-11:30 as a conflict and the intended check admits it |
| CorrectedBooking.DisjointBookingRejectedAsWritten | src/lib/api.ts:115 | with 10:00-11:00 stored, the code rejects 14:00-15:00 as a conflict and the intended check admits it |
| Auth.FindByEmail | src/contexts/AuthContext.tsx:58 | a user is found exactly when some user has the email, and it is the first one that does |
| Auth.Login | src/contexts/AuthContext.tsx:54-71 | login succeeds exactly for an email in `MOCK_USERS` and makes that user current; otherwise it rejects with invalid credentials and the session is unchanged |
| Auth.LoginIgnoresPassword | src/contexts/AuthContext.tsx:58-61 | the outcome of login does not depend on the password |
| Auth.NewUserId | src/contexts/AuthContext.tsx:83 | a registered user's id is the list length plus one, which is always "3" |
| Auth.Register | src/contexts/AuthContext.tsx:73-95 | registration rejects exactly the emails already in the list, leaving the session unchanged; otherwise the current user becomes a non-admin with id "3" and the given email and name |
| Auth.Logout | src/contexts/AuthContext.tsx:97-101 | after logout no user is current |
| Auth.RegistrationIsNotRemembered | src/contexts/AuthContext.tsx:77-88 | the list never grows: the same fresh email registers twice and still cannot log in |
| Auth.SessionUserIds | src/contexts/AuthContext.tsx:31-86 | a user made current by login has id "1" or "2", and one made current by registration has id "3" |
| Dashboard.UpcomingBookings | src/pages/Dashboard.tsx:65-67 | the upcoming tab holds exactly the bookings whose end is after now |
| Dashboard.PastBookings | src/pages/Dashboard.tsx:69-71 | the past tab holds exactly the bookings whose end is at or before now |
| Dashboard.TabsPartitionBookings | src/pages/Dashboard.tsx:65-71 | the two tabs together hold every booking exactly as often as the list does, and no booking is in both |
| Dashboard.TabsKeepOrder | src/pages/Dashboard.tsx:65-71 | each tab keeps the order of the fetched list |
| Dashboard.StartedBookingIsUpcoming | src/pages/Dashboard.tsx:65-71 | a booking in progress is listed as upcoming, not past |
| Dashboard.PastStaysPast | src/pages/Dashboard.tsx:69-71 | a booking filed as past stays past at every later instant |
| Dashboard.HandleCancelBooking | src/pages/Dashboard.tsx:55-63 | a failed cancellation changes neither the local list nor the table; otherwise both keep exactly the entries with a different id |
| Dashboard.HandleCancelKeepsOrder | src/pages/Dashboard.tsx:58 | the local list keeps the order of the entries that remain |
| Dashboard.HandleCancelUnknownId | src/pages/Dashboard.tsx:58 | cancelling an id absent from the local list leaves it unchanged |
| Dashboard.FetchBookings | src/pages/Dashboard.tsx:23-53 | with no user the page redirects instead of fetching; any signed-in user gets the full listing |
| Dashboard.EveryUserSeesTheSameList | src/pages/Dashboard.tsx:35-41 | admins and regular users receive the same list |
| BookingList.NegativeDurationRoundTrip | src/components/booking/BookingList.tsx:36-37 | the label of a negative count reads back as that count |
| BookingList.MinutesOnlyRoundTrip | src/components/booking/BookingList.tsx:36-37 | the label of a count below an hour reads back as that count |
| BookingList.WholeHoursRoundTrip | src/components/booking/BookingList.tsx:40-45 | the label of a whole number of hours reads back as that count |
| BookingList.HoursAndMinutesRoundTrip | src/components/booking/BookingList.tsx:40-47 | the label of hours plus leftover minutes reads back as that count |
| BookingList.DurationTextRoundTrip | src/components/booking/BookingList.tsx:36-47 | every duration label reads back as the minute count it was built from, so distinct durations get distinct labels |
| BookingList.FormatDuration | src/components/booking/BookingList.tsx:30-48 | the card's label reads back as the same minute count the data layer computes for the booking's instants, and no other text reads back as that count |
| BookingList.ReadBackIsDurationText | src/components/booking/BookingList.tsx:36-47 | a text reads back as a count only if it is exactly the label written for that count: no leading zeros, "minutes" only below an hour, "hour" only after 1, "hours" only after more, and leftover minutes only from 1 to 59 |
| BookingList.OneMinuteLabel | src/components/booking/BookingList.tsx:36-37 | one minute is labelled "1 minutes" |
| BookingList.HourLabels | src/components/booking/BookingList.tsx:40-45 | 60 and 120 minutes are labelled "1 hour" and "2 hours" |
| BookingList.NinetyMinutesLabel | src/components/booking/BookingList.tsx:40-47 | 90 minutes is labelled "1 hour 30 minutes" |
| BookingList.HundredFiftyMinutesLabel | src/components/booking/BookingList.tsx:40-47 | 150 minutes is labelled "2 hours 30 minutes" |
| BookingList.RenderBookingList | src/components/booking/BookingList.tsx:123-146 | an empty list shows the no-bookings message; otherwise there is one card per booking, in list order |
| BookingList.IsPast | src/components/booking/BookingList.tsx:57 | a card counts as past exactly when the dashboard's past tab would hold the booking and it does not end at this very instant |
| BookingList.ShowCancelButton | src/components/booking/BookingList.tsx:107 | no button when signed out or on a card badged "Past"; for the owner or an admin the button shows exactly on "Upcoming" cards; anyone else never sees it |
| BookingList.CardAndTabDisagreeAtEnd | src/components/booking/BookingList.tsx:57 | at a booking's end instant the dashboard files it as past while its card says "Upcoming" and still offers an admin the cancel button |
| BookingList.CardAgreesWithTabOtherwise | src/components/booking/BookingList.tsx:57 | every card in the upcoming tab says "Upcoming"; a card in the past tab says "Upcoming" exactly when the booking ends at this very instant |
| BookingList.OnlyAdminsMayCancelListedBookings | src/components/booking/BookingList.tsx:107 | since every listed booking belongs to 'guest', a signed-in user is offered the cancel button exactly when the booking is not past and the user is an admin |
| BookingTimer.CalculateTimeLeft | src/components/booking/BookingTimer.tsx:23-38 | the timer has ended exactly when no time is left; otherwise minutes and seconds are below 60 and the shown time is the time left truncated to the second |
| BookingTimer.TimeLeftIsUnique | src/components/booking/BookingTimer.tsx:33-35 | any hours, minutes and seconds below 60 that match the time left to the second are exactly what the timer shows |
| BookingTimer.EndedIsPermanent | src/components/booking/BookingTimer.tsx:27-31 | once ended, the timer is ended at every later instant |
| BookingTimer.Tick | src/components/booking/BookingTimer.tsx:23-38 | a tick stores ended exactly when the end has been reached, and then clears the active flag; otherwise the flag is kept |
| BookingTimer.LastTickDecides | src/components/booking/BookingTimer.tsx:40-43 | after any run of ticks the stored time left is what the last tick's instant gives |
| BookingTimer.EndedStateIsTerminal | src/components/booking/BookingTimer.tsx:27-31 | ticks after the end leave the ended state unchanged |
| BookingTimer.RenderedClockReadsBack | src/components/booking/BookingTimer.tsx:62 | the clock splits at ':' into three digit fields of at least two characters that read back as the hours, minutes and seconds |
| BookingTimer.ClockWidth | src/components/booking/BookingTimer.tsx:62 | below 100 hours, with minutes and seconds below 60, the clock is exactly eight characters |
| BookingTimer.RenderTimer | src/components/booking/BookingTimer.tsx:49-66 | nothing stored shows "Booking Ended"; otherwise the text is "Time remaining: " and the clock `RenderClock` writes, whose three ':'-separated fields are zero-padded to at least two digits and read back as the stored hours, minutes and seconds |
| BookingTimer.FirstRenderShowsEnded | src/components/booking/BookingTimer.tsx:11-43 | before the first tick the ended badge shows; from the first tick on the stored time left is what the latest instant gives |
| BookingTimer.RenderTimerIsInjective | src/components/booking/BookingTimer.tsx:49-66 | different stored states render differently |
| BookingForm.TimeSlot | src/components/booking/BookingForm.tsx:35-39 | every slot is five characters: two digits, ':', two digits |
| BookingForm.ParseSlot | src/components/booking/BookingForm.tsx:85 | text without ':' never reads; a text that reads gives the number that opens it as the hour and the number right after its first ':' as the minute |
| BookingForm.SlotReadsBack | src/components/booking/BookingForm.tsx:35-39 | reading a slot the way the form does gives the hour and minute it was built from |
| BookingForm.SlotsAreHalfHourly | src/components/booking/BookingForm.tsx:34-39 | slots run from 09:00 to 17:00, each thirty minutes after the previous one |
| BookingForm.FirstAndLastSlots | src/components/booking/BookingForm.tsx:34-39 | the first slot is "09:00" and the last "17:00" |
| BookingForm.DurationOptionsArePositive | src/components/booking/BookingForm.tsx:42 | every offered duration is positive |
| BookingForm.ValidationErrors | src/components/booking/BookingForm.tsx:44-58 | the form reports a short title exactly when its JavaScript length (UTF-16 code units) is below 3, a missing name exactly when that length is below 2, and a missing date, start time or duration exactly when that field is empty |
| BookingForm.AstralTitleIsLongEnough | src/components/booking/BookingForm.tsx:45 | a title of two characters outside the Basic Multilingual Plane is four code units long, so it is not too short |
| BookingForm.DefaultFormIsInvalid | src/components/booking/BookingForm.tsx:70-78 | the form as it opens reports the short title, the missing name and the missing start time, and nothing else |
| BookingForm.SplitAttendees | src/components/booking/BookingForm.tsx:102 | an absent or empty field gives no attendees; otherwise one trimmed entry per comma-separated piece, in order |
| BookingForm.AttendeesRoundTrip | src/components/booking/BookingForm.tsx:102 | addresses without commas or surrounding blanks, joined with ',', come back exactly, in order and with repeats |
| BookingForm.BuildRequest | src/components/booking/BookingForm.tsx:81-105 | a request is built exactly when validation passes and the start time reads as numbers; it starts at that time of the chosen day, lasts the chosen duration, and carries 'guest', the title, the name, the description or "", the attendees and the chosen duration |
| BookingForm.SlotRequestStartsAtSlot | src/components/booking/BookingForm.tsx:85-89 | a valid form with a slot chosen starts at that slot's offset into the chosen day |
| BookingForm.FormDurationAgrees | src/components/booking/BookingForm.tsx:92-104 | the duration sent with the request equals the duration the data layer computes from its instants |
| BookingForm.OfferedDurationsGoForward | src/components/booking/BookingForm.tsx:42 | with an offered duration the request ends after it starts |
| BookingForm.CreatedFormBookingKeepsDuration | src/components/booking/BookingForm.tsx:96-105 | a booking that `createBooking` creates from the form reports the chosen duration, and this agrees with the duration recomputed from its instants |
| Navbar.GetInitials | src/components/layout/Navbar.tsx:30-36 | the initials are the upper-cased first characters of the non-empty space-separated segments, in order: one per segment, none lower-case |
| Navbar.InitialsOfWords | src/components/layout/Navbar.tsx:30-36 | words joined by single spaces give the upper-cased first letter of each word, in order |
| Navbar.LeadingSpaceIgnored | src/components/layout/Navbar.tsx:32-34 | a leading space contributes nothing |
| Navbar.DoubledSpaceIgnored | src/components/layout/Navbar.tsx:32-34 | a doubled space anywhere in the name contributes nothing |
| Navbar.TrailingSpaceIgnored | src/components/layout/Navbar.tsx:32-34 | a trailing space contributes nothing |
| Navbar.MockUserInitials | src/components/layout/Navbar.tsx:30-36 | "Admin User" gives "AU" and "Regular User" gives "RU" |

## Left out

- Network, database and timer plumbing are not modelled: Supabase calls, `setTimeout`, `setInterval`, React state, effects and rendering. A database error is a boolean parameter. The database-assigned id and timestamp, and the clock, are parameters.
- Toasts, `console` logging, the simulated email notification at `src/lib/api.ts:93-96`, and `localStorage` persistence of the session are side effects with no bearing on the data. They are not modelled.
- The conflict check and the insert are separate requests. Concurrent bookings can race between them. Each operation is modelled as one atomic step.
- Instants are integer milliseconds. ISO-8601 strings, time zones and daylight-saving shifts in `setHours`, and `date-fns` `format` are not modelled. The chosen day arrives as its local midnight.
- JavaScript numbers are modelled as unbounded integers. Non-integer, `NaN` and very large values are not modelled.
- `Text` works on ASCII, except that `length` counts UTF-16 code units for every character. `trim` removes the six ASCII white-space characters, and `toUpperCase` maps only a-z.
- BookingForm.ParseSlot reads only all-digit fields, and an empty field reads as 0. `Number` also accepts surrounding blanks, signs and exponents, which the slot list never produces.
- BookingApi.SortByStart: rows with equal start times are put in table order. The database does not promise any order among them.
- BookingApi.GetBookings: the result is ordered by start time only, as PostgREST is asked to order it.
- The card's description and attendee lines, and its date and time text, are display only. The markup of every component is not modelled.
- Each tab filter on the dashboard, and each card, reads the clock separately, once per booking. The model reads it once and uses that one instant for every filter and card. In the source, a booking that ends between two of those readings can appear in both tabs, or in neither. `Dashboard.TabsPartitionBookings` and `BookingList.CardAndTabDisagreeAtEnd` hold for one shared instant only.
- CorrectedBooking.RunKeepsNonOverlapping: the invariant holds only if every conflict query succeeds. A creation whose conflict query errors inserts anything, as the code does, and `CorrectedBooking.FailOpenAdmitsOverlap` shows the overlap it can let in.
- `supabase/functions/send-booking-email/index.ts`, `NepalClock.tsx`, `Footer.tsx` and the routing pages are not part of this model.
- Several features described for the system do not exist in the code, and the model follows the code. There is no separate statistics aggregation, and no "in progress" group on the dashboard (a started booking is upcoming). There is no "not started" timer state: the countdown runs to the booking's end from any earlier instant. The data layer does not validate requests; only the form does.

## Findings

| source | as written | input that shows it | evidently intended | confidence | as-written member | corrected member |
|---|---|---|---|---|---|---|
| src/lib/api.ts:115 | the conflict filter is `or(start_time.lte.<end>,end_time.gte.<start>)`, two inclusive bounds joined by OR | table holds 10:00-11:00; a request for 14:00-15:00 (or 11:00-11:30) is rejected as a scheduling conflict | a stored booking conflicts when it starts before the candidate ends AND ends after the candidate starts | high, not executed | CorrectedBooking.DisjointBookingRejectedAsWritten | CorrectedBooking.RunKeepsNonOverlapping |

=== FILE: api.dfy ===
/** The data-access layer over the `bookings` table: duration computation,
    the conflict query, creation, cancellation and listing.

    The table is a sequence of rows. Each call into the database is modelled
    by a flag saying whether the query returned an error; the id and the
    creation instant the database assigns to an inserted row are parameters. */
module BookingApi {
  import opened Wrappers
  import opened BookingTypes
  import Seqs

  /** `calculateDuration`: the whole number of minutes nearest to the
      interval's length, halves rounded up (what `Math.round` does to a
      millisecond count divided by 60000). */
  function CalculateDuration(start: Instant, end: Instant): (minutes: int)
    ensures minutes * MsPerMinute - MsPerMinute / 2 <= end - start
    ensures end - start < minutes * MsPerMinute + MsPerMinute / 2
  {
    (end - start + MsPerMinute / 2) / MsPerMinute
  }

  /** An interval of exactly `k` minutes is reported as `k` minutes. */
  lemma DurationOfWholeMinutes(start: Instant, k: int)
    ensures CalculateDuration(start, start + k * MsPerMinute) == k
  {
    var m := CalculateDuration(start, start + k * MsPerMinute);
    assert (m - k) * MsPerMinute < MsPerMinute / 2;
    assert (k - m) * MsPerMinute <= MsPerMinute / 2;
  }

  // ---------------------------------------------------------------------------
  // Conflict check

  /** One row passes the PostgREST filter
      `or(start_time.lte.<end>,end_time.gte.<start>)`: a disjunction with
      inclusive bounds, exactly as the query is written. */
  predicate MatchesConflictFilter(row: Row, start: Instant, end: Instant)
  {
    row.startTime <= end || row.endTime >= start
  }

  /** The rows the conflict query returns. */
  function ConflictQuery(store: seq<Row>, start: Instant, end: Instant): seq<Row>
  {
    Seqs.Filter(store, (row: Row) => MatchesConflictFilter(row, start, end))
  }

  /** `checkBookingConflicts`: a conflict is reported when the query returns
      at least one row; a query error is swallowed and reported as "no
      conflict". */
  function CheckBookingConflicts(store: seq<Row>, queryFails: bool, start: Instant, end: Instant): (conflicts: bool)
    ensures conflicts <==>
              !queryFails && exists i :: 0 <= i < |store| && MatchesConflictFilter(store[i], start, end)
  {
    if queryFails then false
    else
      var hits := ConflictQuery(store, start, end);
      assert |hits| > 0 ==> hits[0] in store;
      |hits| > 0
  }

  /** Every stored booking that overlaps the candidate under half-open
      semantics passes the filter, so no overlapping booking is admitted
      while the query succeeds. */
  lemma OverlapIsReported(store: seq<Row>, start: Instant, end: Instant, i: nat)
    requires i < |store|
    requires Overlaps(store[i].startTime, store[i].endTime, start, end)
    ensures CheckBookingConflicts(store, false, start, end)
  {
  }

  /** For well-formed intervals the filter passes EVERY stored row, whatever
      its position in time: a row either starts no later than the candidate
      ends, or it starts (and so ends) after the candidate starts. */
  lemma EveryWellFormedRowMatches(row: Row, start: Instant, end: Instant)
    requires row.startTime <= row.endTime && start <= end
    ensures MatchesConflictFilter(row, start, end)
  {
    if row.startTime > end {
      assert row.endTime >= start;
    }
  }

  predicate WellFormedRows(store: seq<Row>)
  {
    forall i :: 0 <= i < |store| ==> store[i].startTime <= store[i].endTime
  }

  /** Consequently, on a store of well-formed rows, a conflict is reported
      exactly when the store is non-empty and the query succeeds. */
  lemma ConflictIffStoreNonEmpty(store: seq<Row>, queryFails: bool, start: Instant, end: Instant)
    requires WellFormedRows(store) && start <= end
    ensures CheckBookingConflicts(store, queryFails, start, end) <==> !queryFails && |store| > 0
  {
    if !queryFails && |store| > 0 {
      EveryWellFormedRowMatches(store[0], start, end);
    }
  }

  // ---------------------------------------------------------------------------
  // Creation

  datatype CreateError = SchedulingConflict | InsertFailed

  /** A successful creation: the table after the insert, and the booking
      returned to the caller. */
  datatype Created = Created(store: seq<Row>, booking: Booking)

  /** The row `createBooking` inserts; the database assigns `id` and
      `createdAt`. Missing attendees are stored as an empty list. */
  function InsertedRow(params: CreateBookingParams, id: string, createdAt: Instant): Row
  {
    Row(id, params.title, Some(params.description), params.createdBy,
        params.startTime, params.endTime, Some(params.attendees.ValueOr([])), createdAt)
  }

  /** The application's view of a row. Every booking is attributed to the
      user id 'guest'; a null description becomes '' and null attendees []. */
  function FromRow(row: Row, durationMinutes: Option<int>): Booking
  {
    Booking(row.id, "guest", row.title, row.description.ValueOr(""), row.startTime, row.endTime,
            row.attendees.ValueOr([]), row.bookedBy, row.createdAt, durationMinutes)
  }

  /** `params.durationMinutes || calculateDuration(...)`: a missing or zero
      duration is recomputed from the instants. */
  function ReportedDuration(params: CreateBookingParams): Option<int>
  {
    if params.durationMinutes.Some? && params.durationMinutes.value != 0 then params.durationMinutes
    else Some(CalculateDuration(params.startTime, params.endTime))
  }

  /** The insert half of `createBooking`: append the row, or fail with the
      database error; the booking returned is built from the inserted row. */
  function InsertBooking(store: seq<Row>, params: CreateBookingParams, insertFails: bool,
                         newId: string, now: Instant): (r: Result<Created, CreateError>)
    ensures r.Failure? <==> insertFails
    ensures r.Failure? ==> r.error == InsertFailed
    ensures r.Success? ==> r.value.store == store + [InsertedRow(params, newId, now)]
  {
    if insertFails then Failure(InsertFailed)
    else
      var row := InsertedRow(params, newId, now);
      Success(Created(store + [row], FromRow(row, ReportedDuration(params))))
  }

  /** `createBooking`: check for conflicts, then insert. */
  function CreateBooking(store: seq<Row>, params: CreateBookingParams,
                         conflictQueryFails: bool, insertFails: bool,
                         newId: string, now: Instant): (r: Result<Created, CreateError>)
    ensures r == Failure(SchedulingConflict) <==>
              CheckBookingConflicts(store, conflictQueryFails, params.startTime, params.endTime)
    ensures r.Success? <==>
              !CheckBookingConflicts(store, conflictQueryFails, params.startTime, params.endTime) && !insertFails
    ensures r.Success? ==>
              && |r.value.store| == |store| + 1
              && r.value.store[..|store|] == store
              && r.value.store[|store|].id == newId
              && r.value.store[|store|].createdAt == now
              && r.value.store[|store|].startTime == params.startTime
              && r.value.store[|store|].endTime == params.endTime
              && r.value.store[|store|].title == params.title
              && r.value.store[|store|].description == Some(params.description)
              && r.value.store[|store|].bookedBy == params.createdBy
              && r.value.store[|store|].attendees == Some(params.attendees.ValueOr([]))
    ensures r.Success? ==>
              var b := r.value.booking;
              && b.id == newId && b.userId == "guest" && b.createdAt == now
              && b.title == params.title && b.description == params.description
              && b.startTime == params.startTime && b.endTime == params.endTime
              && b.createdBy == params.createdBy
              && b.attendees == (if params.attendees.Some? then params.attendees.value else [])
              && (params.durationMinutes.Some? && params.durationMinutes.value != 0 ==>
                    b.durationMinutes == params.durationMinutes)
              && (params.durationMinutes.None? || params.durationMinutes.value == 0 ==>
                    b.durationMinutes == Some(CalculateDuration(params.startTime, params.endTime)))
  {
    if CheckBookingConflicts(store, conflictQueryFails, params.startTime, params.endTime) then
      Failure(SchedulingConflict)
    else
      InsertBooking(store, params, insertFails, newId, now)
  }

  /** With well-formed intervals the as-written check admits a booking only
      into an empty table, or when the conflict query itself failed. */
  lemma CreateSucceedsOnlyOnEmptyStore(store: seq<Row>, params: CreateBookingParams,
                                       conflictQueryFails: bool, insertFails: bool,
                                       newId: string, now: Instant)
    requires WellFormedRows(store) && params.startTime <= params.endTime
    requires CreateBooking(store, params, conflictQueryFails, insertFails, newId, now).Success?
    ensures |store| == 0 || conflictQueryFails
  {
    ConflictIffStoreNonEmpty(store, conflictQueryFails, params.startTime, params.endTime);
  }

  /** A failed conflict query lets any request through to the insert. */
  lemma FailedConflictQueryAdmitsAnything(store: seq<Row>, params: CreateBookingParams,
                                          newId: string, now: Instant)
    ensures CreateBooking(store, params, true, false, newId, now).Success?
  {
  }

  // ---------------------------------------------------------------------------
  // Cancellation

  datatype CancelError = DeleteFailed

  /** `cancelBooking`: delete every row with the given id. */
  function CancelBooking(store: seq<Row>, id: string, deleteFails: bool): (r: Result<seq<Row>, CancelError>)
    ensures r.Failure? <==> deleteFails
    ensures r.Success? ==>
              && (forall i :: 0 <= i < |r.value| ==> r.value[i] in store && r.value[i].id != id)
              && (forall i :: 0 <= i < |store| && store[i].id != id ==> store[i] in r.value)
  {
    if deleteFails then Failure(DeleteFailed)
    else Success(Seqs.Filter(store, (row: Row) => row.id != id))
  }

  /** Deleting an id no row carries is not an error and changes nothing. */
  lemma CancelUnknownIdKeepsStore(store: seq<Row>, id: string)
    requires forall i :: 0 <= i < |store| ==> store[i].id != id
    ensures CancelBooking(store, id, false) == Success(store)
  {
    Seqs.FilterKeepsAll(store, (row: Row) => row.id != id);
  }

  /** The surviving rows keep their relative order. */
  lemma CancelKeepsOrder(a: seq<Row>, b: seq<Row>, id: string)
    ensures CancelBooking(a + b, id, false).value
         == CancelBooking(a, id, false).value + CancelBooking(b, id, false).value
  {
    Seqs.FilterConcat(a, b, (row: Row) => row.id != id);
  }

  // ---------------------------------------------------------------------------
  // Listing

  predicate SortedByStart(rows: seq<Row>)
  {
    forall i, j :: 0 <= i < j < |rows| ==> rows[i].startTime <= rows[j].startTime
  }

  /** Inserts `row` into a sorted table before the first row that does not
      start earlier. The result starts with either `row` or the old first row. */
  function InsertByStart(row: Row, sorted: seq<Row>): (r: seq<Row>)
    requires SortedByStart(sorted)
    ensures SortedByStart(r)
    ensures |r| > 0 && (r[0] == row || (|sorted| > 0 && r[0] == sorted[0]))
    ensures multiset(r) == multiset(sorted) + multiset{row}
  {
    if |sorted| == 0 then [row]
    else if row.startTime <= sorted[0].startTime then [row] + sorted
    else
      var tail := InsertByStart(row, sorted[1..]);
      assert sorted == [sorted[0]] + sorted[1..];
      ConsSorted(sorted[0], tail);
      [sorted[0]] + tail
  }

  lemma ConsSorted(first: Row, rest: seq<Row>)
    requires SortedByStart(rest)
    requires |rest| > 0 ==> first.startTime <= rest[0].startTime
    ensures SortedByStart([first] + rest)
  {
    var r := [first] + rest;
    forall i, j | 0 <= i < j < |r|
      ensures r[i].startTime <= r[j].startTime
    {
      if i == 0 && j > 1 {
        assert rest[0].startTime <= rest[j - 1].startTime;
      }
    }
  }

  /** The `order('start_time', { ascending: true })` of the listing query;
      rows with equal start times keep their table order. */
  function SortByStart(rows: seq<Row>): (r: seq<Row>)
    ensures SortedByStart(r)
    ensures multiset(r) == multiset(rows)
  {
    if |rows| == 0 then []
    else
      assert rows == [rows[0]] + rows[1..];
      InsertByStart(rows[0], SortByStart(rows[1..]))
  }

  lemma SameElements(a: seq<Row>, b: seq<Row>)
    requires multiset(a) == multiset(b)
    ensures |a| == |b|
    ensures forall i :: 0 <= i < |a| ==> a[i] in b
  {
    assert |multiset(a)| == |a| && |multiset(b)| == |b|;
    forall i | 0 <= i < |a|
      ensures a[i] in b
    {
      assert a[i] in multiset(a);
    }
  }

  /** A listed booking: the row's view with its duration recomputed. */
  function Normalize(row: Row): Booking
  {
    FromRow(row, Some(CalculateDuration(row.startTime, row.endTime)))
  }

  function NormalizeAll(rows: seq<Row>): (bookings: seq<Booking>)
    ensures |bookings| == |rows|
    ensures forall i :: 0 <= i < |rows| ==> bookings[i] == Normalize(rows[i])
  {
    seq(|rows|, i requires 0 <= i < |rows| => Normalize(rows[i]))
  }

  /** Normalising a permutation of the table lists every row once. */
  lemma NormalizedPermutation(store: seq<Row>, sorted: seq<Row>)
    requires multiset(sorted) == multiset(store)
    ensures |NormalizeAll(sorted)| == |store|
    ensures forall j :: 0 <= j < |store| ==> Normalize(store[j]) in NormalizeAll(sorted)
    ensures forall i :: 0 <= i < |sorted| ==>
              exists j :: 0 <= j < |store| && NormalizeAll(sorted)[i] == Normalize(store[j])
  {
    SameElements(sorted, store);
    SameElements(store, sorted);
    var bookings := NormalizeAll(sorted);
    forall j | 0 <= j < |store|
      ensures Normalize(store[j]) in bookings
    {
      var k :| 0 <= k < |sorted| && sorted[k] == store[j];
      assert bookings[k] == Normalize(store[j]);
    }
    forall i | 0 <= i < |sorted|
      ensures exists j :: 0 <= j < |store| && bookings[i] == Normalize(store[j])
    {
      var j :| 0 <= j < |store| && store[j] == sorted[i];
      assert bookings[i] == Normalize(store[j]);
    }
  }

  lemma NormalizeAllConcat(a: seq<Row>, b: seq<Row>)
    ensures NormalizeAll(a + b) == NormalizeAll(a) + NormalizeAll(b)
  {
    assert forall i :: 0 <= i < |a + b| ==> NormalizeAll(a + b)[i] == (NormalizeAll(a) + NormalizeAll(b))[i];
  }

  /** Listing a permutation of the table lists every row exactly as often
      as it occurs in the table. */
  lemma {:induction false} NormalizeAllPermutation(a: seq<Row>, b: seq<Row>)
    requires multiset(a) == multiset(b)
    ensures multiset(NormalizeAll(a)) == multiset(NormalizeAll(b))
    decreases |a|
  {
    if |a| == 0 {
      assert |multiset(b)| == 0;
    } else {
      var x := a[0];
      assert x in multiset(b);
      var k :| 0 <= k < |b| && b[k] == x;
      var rest := b[..k] + b[k + 1..];
      assert b == b[..k] + [x] + b[k + 1..];
      assert a == [x] + a[1..];
      assert multiset(b) == multiset(b[..k]) + multiset{x} + multiset(b[k + 1..]);
      assert multiset(rest) == multiset(b[..k]) + multiset(b[k + 1..]);
      assert multiset(a) == multiset{x} + multiset(a[1..]);
      assert multiset(a[1..]) == multiset(a) - multiset{x};
      assert multiset(rest) == multiset(b) - multiset{x};
      NormalizeAllPermutation(a[1..], rest);
      NormalizeAllConcat([x], a[1..]);
      NormalizeAllConcat(b[..k] + [x], b[k + 1..]);
      NormalizeAllConcat(b[..k], [x]);
      NormalizeAllConcat(b[..k], b[k + 1..]);
    }
  }

  /** `getBookings`: all rows by ascending start, normalised; [] when the
      query fails. */
  function GetBookings(store: seq<Row>, queryFails: bool): (bookings: seq<Booking>)
    ensures queryFails ==> bookings == []
    ensures !queryFails ==> |bookings| == |store|
    ensures forall i, j :: 0 <= i < j < |bookings| ==> bookings[i].startTime <= bookings[j].startTime
    ensures forall i :: 0 <= i < |bookings| ==>
              && bookings[i].userId == "guest"
              && bookings[i].durationMinutes == Some(CalculateDuration(bookings[i].startTime, bookings[i].endTime))
              && exists j :: 0 <= j < |store| && bookings[i] == Normalize(store[j])
    ensures !queryFails ==> forall j :: 0 <= j < |store| ==> Normalize(store[j]) in bookings
    ensures !queryFails ==> multiset(bookings) == multiset(NormalizeAll(store))
  {
    if queryFails then []
    else
      var sorted := SortByStart(store);
      NormalizedPermutation(store, sorted);
      NormalizeAllPermutation(sorted, store);
      NormalizeAll(sorted)
  }

  /** `getUserBookings`: the argument is ignored, so the result is the full
      listing, one booking per row of the table whoever asks. */
  function GetUserBookings(store: seq<Row>, queryFails: bool, userId: string): (bookings: seq<Booking>)
    ensures queryFails ==> bookings == []
    ensures !queryFails ==> multiset(bookings) == multiset(NormalizeAll(store))
    ensures forall i, j :: 0 <= i < j < |bookings| ==> bookings[i].startTime <= bookings[j].startTime
  {
    GetBookings(store, queryFails)
  }

  lemma UserBookingsIgnoreUserId(store: seq<Row>, queryFails: bool, u1: string, u2: string)
    ensures GetUserBookings(store, queryFails, u1) == GetUserBookings(store, queryFails, u2)
    ensures GetUserBookings(store, queryFails, u1) == GetBookings(store, queryFails)
  {
  }

  /** A booking just created is listed afterwards, with its duration
      recomputed from the instants. */
  lemma CreatedBookingIsListed(store: seq<Row>, params: CreateBookingParams,
                               conflictQueryFails: bool, newId: string, now: Instant)
    requires CreateBooking(store, params, conflictQueryFails, false, newId, now).Success?
    ensures var c := CreateBooking(store, params, conflictQueryFails, false, newId, now).value;
            c.booking.(durationMinutes := Some(CalculateDuration(params.startTime, params.endTime)))
              in GetBookings(c.store, false)
  {
    var c := CreateBooking(store, params, conflictQueryFails, false, newId, now).value;
    assert Normalize(c.store[|store|]) in GetBookings(c.store, false);
  }
}

=== FILE: auth.dfy ===
/** The mock authentication context: a fixed two-entry user list and a
    session holding the current user. `login` and `register` resolve or
    reject; `logout` always clears the session. The 500 ms simulated delay,
    toasts and `localStorage` persistence are not modelled. */
module Auth {
  import opened Wrappers
  import Text

  /** A user; an absent `isAdmin` reads as false. */
  datatype User = User(id: string, email: string, name: string, isAdmin: bool)

  /** `MOCK_USERS`. It is a constant: nothing ever adds to it. */
  const MockUsers: seq<User> := [
    User("1", "admin@example.com", "Admin User", true),
    User("2", "user@example.com", "Regular User", false)
  ]

  datatype Session = Session(currentUser: Option<User>)

  datatype AuthError = InvalidCredentials | UserAlreadyExists

  /** The session after a call, and what the returned promise settles to. */
  datatype AuthOutcome = AuthOutcome(session: Session, result: Result<User, AuthError>)

  predicate Registered(email: string)
  {
    exists i :: 0 <= i < |MockUsers| && MockUsers[i].email == email
  }

  /** `MOCK_USERS.find(u => u.email === email)`: the first user with that email. */
  function FindByEmail(users: seq<User>, email: string): (r: Option<User>)
    ensures r.Some? <==> exists i :: 0 <= i < |users| && users[i].email == email
    ensures r.Some? ==> exists i :: 0 <= i < |users| && users[i] == r.value
                                   && (forall k :: 0 <= k < i ==> users[k].email != email)
    ensures r.Some? ==> r.value.email == email
  {
    if |users| == 0 then None
    else if users[0].email == email then Some(users[0])
    else
      var r := FindByEmail(users[1..], email);
      assert r.Some? ==> exists i :: 1 <= i < |users| && users[i] == r.value
                                   && (forall k :: 0 <= k < i ==> users[k].email != email);
      r
  }

  /** `login`: succeeds exactly for an email of a mock user and makes that
      user current; the password is never examined. */
  function Login(s: Session, email: string, password: string): (o: AuthOutcome)
    ensures o.result.Success? <==> Registered(email)
    ensures o.result.Success? ==>
              o.result.value in MockUsers && o.result.value.email == email
              && o.session.currentUser == Some(o.result.value)
    ensures o.result.Failure? ==> o.result.error == InvalidCredentials && o.session == s
  {
    match FindByEmail(MockUsers, email)
    case Some(user) => AuthOutcome(Session(Some(user)), Success(user))
    case None => AuthOutcome(s, Failure(InvalidCredentials))
  }

  lemma LoginIgnoresPassword(s: Session, email: string, p1: string, p2: string)
    ensures Login(s, email, p1) == Login(s, email, p2)
  {
  }

  /** The id a registered user receives: `MOCK_USERS.length + 1`, rendered. */
  function NewUserId(): (id: string)
    ensures id == "3"
  {
    Text.NatToString(|MockUsers| + 1)
  }

  /** `register`: rejects an email already in the mock list; otherwise makes
      a fresh non-admin user current. The list itself is not extended. */
  function Register(s: Session, email: string, password: string, name: string): (o: AuthOutcome)
    ensures o.result.Failure? <==> Registered(email)
    ensures o.result.Failure? ==> o.result.error == UserAlreadyExists && o.session == s
    ensures o.result.Success? ==>
              o.result.value == User("3", email, name, false)
              && o.session.currentUser == Some(o.result.value)
  {
    if FindByEmail(MockUsers, email).Some? then AuthOutcome(s, Failure(UserAlreadyExists))
    else
      var user := User(NewUserId(), email, name, false);
      AuthOutcome(Session(Some(user)), Success(user))
  }

  /** `logout`: the session is cleared from any state. */
  function Logout(s: Session): (s': Session)
    ensures s'.currentUser.None?
  {
    Session(None)
  }

  /** Because the list never grows, registering the same fresh email twice
      succeeds both times, and that email still cannot log in. */
  lemma RegistrationIsNotRemembered(s: Session, email: string, password: string, name: string)
    requires !Registered(email)
    ensures var first := Register(s, email, password, name);
            && first.result.Success?
            && Register(first.session, email, password, name).result.Success?
            && Login(first.session, email, password).result.Failure?
  {
  }

  /** Every user a session can hold after `login` or `register` has id "1",
      "2" or "3". */
  lemma SessionUserIds(s: Session, email: string, password: string, name: string)
    ensures var o := Login(s, email, password);
            o.result.Success? ==> o.result.value.id in {"1", "2"}
    ensures var o := Register(s, email, password, name);
            o.result.Success? ==> o.result.value.id == "3"
  {
  }
}

=== FILE: booking_form.dfy ===
/** The booking form: its fixed choices (start-time slots and durations),
    the length rules of its schema, and how a submitted form becomes a
    creation request. The chosen calendar day arrives as the instant of its
    local midnight; `setHours` on that day is modelled as adding the hours
    and minutes to it. */
module BookingForm {
  import opened Wrappers
  import opened BookingTypes
  import Text
  import BookingApi

  // ---------------------------------------------------------------------------
  // Choices offered by the form

  const SlotCount: nat := 17

  function SlotHour(i: nat): nat { (i + 18) / 2 }

  function SlotMinute(i: nat): nat { if (i + 18) % 2 == 0 then 0 else 30 }

  function SlotMinuteText(i: nat): string { if (i + 18) % 2 == 0 then "00" else "30" }

  /** Entry `i` of `TIME_SLOTS`: the zero-padded hour, ':', then "00" or
      "30" — always five characters, two digits on each side of the ':'. */
  function TimeSlot(i: nat): (slot: string)
    requires i < SlotCount
    ensures |slot| == 5 && slot[2] == ':'
    ensures Text.AllDigits(slot[..2]) && Text.AllDigits(slot[3..])
  {
    Text.ShortNumberWidth(SlotHour(i));
    var hh := Text.PadStart(Text.NatToString(SlotHour(i)), 2, '0');
    assert |hh| == 2;
    var slot := hh + ":" + SlotMinuteText(i);
    assert slot[..2] == hh;
    assert slot[3..] == SlotMinuteText(i);
    slot
  }

  const TimeSlots: seq<string> := seq(SlotCount, i requires 0 <= i < SlotCount => TimeSlot(i))

  /** `DURATION_OPTIONS`, in minutes. */
  const DurationOptions: seq<int> := [30, 60, 90, 120, 180, 240]

  lemma DurationOptionsArePositive()
    ensures forall i :: 0 <= i < |DurationOptions| ==> DurationOptions[i] > 0
  {
  }

  /** `startTime.split(":").map(Number)` read into hours and minutes. Only
      decimal-digit fields are read (an empty one reads as 0); anything else,
      or a missing minutes field, gives `NaN` and so an invalid date. */
  function ParseSlot(slot: string): (read: Option<(nat, nat)>)
    ensures ':' !in slot ==> read.None?
    ensures read.Some? ==>
              var hh := Text.LeadingDigits(slot);
              && |hh| < |slot| && slot[|hh|] == ':'
              && read.value.0 == Text.ParseNat(hh)
              && read.value.1 == Text.ParseNat(Text.LeadingDigits(slot[|hh| + 1..]))
  {
    var fields := Text.Split(slot, ':');
    if |fields| >= 2 && Text.AllDigits(fields[0]) && Text.AllDigits(fields[1]) then
      FieldsAreLeadingNumbers(slot, fields);
      Some((Text.ParseNat(fields[0]), Text.ParseNat(fields[1])))
    else None
  }

  /** The first two digit fields of a split are the number that opens the
      text and the number right after the first ':'. */
  lemma FieldsAreLeadingNumbers(slot: string, fields: seq<string>)
    requires fields == Text.Split(slot, ':') && |fields| >= 2
    requires Text.AllDigits(fields[0]) && Text.AllDigits(fields[1])
    ensures |fields[0]| < |slot| && slot[|fields[0]|] == ':'
    ensures Text.LeadingDigits(slot) == fields[0]
    ensures Text.LeadingDigits(slot[|fields[0]| + 1..]) == fields[1]
  {
    var tail := Text.Join(fields[1..], ':');
    Text.JoinFirst(fields, ':');
    assert !Text.IsDigit(':');
    Text.LeadingDigitsOfNumber(fields[0], [':'] + tail);
    assert slot[|fields[0]| + 1..] == tail;
    if |fields| == 2 {
      assert tail == fields[1] + "";
      Text.LeadingDigitsOfNumber(fields[1], "");
    } else {
      Text.JoinFirst(fields[1..], ':');
      assert fields[1..][1..] == fields[2..];
      Text.LeadingDigitsOfNumber(fields[1], [':'] + Text.Join(fields[2..], ':'));
    }
  }

  /** Two digit fields around one ':' read back as their values. */
  lemma ReadsTwoFields(hh: string, mm: string)
    requires Text.AllDigits(hh) && Text.AllDigits(mm)
    ensures ParseSlot(hh + ":" + mm) == Some((Text.ParseNat(hh), Text.ParseNat(mm)))
  {
    assert ':' !in hh && ':' !in mm;
    Text.SplitAtFirstSeparator(hh, mm, ':');
    Text.SplitWithoutSeparator(mm, ':');
    assert Text.Split(hh + ":" + mm, ':') == [hh, mm];
  }

  lemma MinuteTextValue(i: nat)
    ensures Text.AllDigits(SlotMinuteText(i)) && Text.ParseNat(SlotMinuteText(i)) == SlotMinute(i)
  {
    assert Text.ParseNat("00") == 0 by {
      assert "00"[..1] == "0";
    }
    assert Text.ParseNat("30") == 30 by {
      assert "30"[..1] == "3";
    }
  }

  /** Every slot is read back as the hour and minute it was built from. */
  lemma SlotReadsBack(i: nat)
    requires i < SlotCount
    ensures ParseSlot(TimeSlots[i]) == Some((SlotHour(i), SlotMinute(i)))
  {
    var hh := Text.PadStart(Text.NatToString(SlotHour(i)), 2, '0');
    Text.PaddedNumberParsesBack(SlotHour(i), 2);
    MinuteTextValue(i);
    assert TimeSlots[i] == TimeSlot(i) == hh + ":" + SlotMinuteText(i);
    ReadsTwoFields(hh, SlotMinuteText(i));
  }

  /** The instant offset, in minutes after midnight, a slot denotes. */
  function SlotOffset(i: nat): nat
    requires i < SlotCount
  {
    SlotHour(i) * 60 + SlotMinute(i)
  }

  /** The slots run from 09:00 to 17:00, each thirty minutes after the one
      before, so they are strictly increasing. */
  lemma SlotsAreHalfHourly(i: nat)
    requires i + 1 < SlotCount
    ensures SlotOffset(0) == 9 * 60 && SlotOffset(SlotCount - 1) == 17 * 60
    ensures SlotOffset(i + 1) == SlotOffset(i) + 30
  {
  }

  lemma SlotText(i: nat, hh: string, mm: string)
    requires i < SlotCount
    requires hh == Text.PadStart(Text.NatToString(SlotHour(i)), 2, '0') && mm == SlotMinuteText(i)
    ensures TimeSlots[i] == hh + ":" + mm
  {
  }

  lemma FirstAndLastSlots()
    ensures TimeSlots[0] == "09:00" && TimeSlots[SlotCount - 1] == "17:00"
  {
    var nine := Text.NatToString(9);
    assert nine == "9";
    assert Text.PadStart(nine, 2, '0') == "09";
    SlotText(0, "09", "00");
    var seventeen := Text.NatToString(17);
    assert seventeen == "17" by {
      assert Text.NatToString(1) == "1";
    }
    assert Text.PadStart(seventeen, 2, '0') == "17";
    SlotText(SlotCount - 1, "17", "00");
  }

  // ---------------------------------------------------------------------------
  // Validation

  /** The values the form submits. `date` is the chosen day's local
      midnight; a field left empty is `None`. */
  datatype FormValues = FormValues(
    title: string,
    description: Option<string>,
    bookedBy: string,
    date: Option<Instant>,
    startTime: Option<string>,
    duration: Option<int>,
    attendees: Option<string>)

  /** The form as it opens: empty text fields, today's date, one hour, and
      no start time chosen. */
  function DefaultValues(today: Instant): FormValues
  {
    FormValues("", Some(""), "", Some(today), None, Some(60), Some(""))
  }

  datatype FormError = TitleTooShort | NameMissing | DateMissing | StartTimeMissing | DurationMissing

  /** The schema's findings, in field order: a title of fewer than 3
      characters, a name of fewer than 2, and a date, start time or
      duration not chosen. */
  function ValidationErrors(v: FormValues): (errors: seq<FormError>)
    ensures TitleTooShort in errors <==> Text.JsLength(v.title) < 3
    ensures NameMissing in errors <==> Text.JsLength(v.bookedBy) < 2
    ensures DateMissing in errors <==> v.date.None?
    ensures StartTimeMissing in errors <==> v.startTime.None?
    ensures DurationMissing in errors <==> v.duration.None?
    ensures |errors| <= 5
  {
    (if Text.JsLength(v.title) < 3 then [TitleTooShort] else [])
    + (if Text.JsLength(v.bookedBy) < 2 then [NameMissing] else [])
    + (if v.date.None? then [DateMissing] else [])
    + (if v.startTime.None? then [StartTimeMissing] else [])
    + (if v.duration.None? then [DurationMissing] else [])
  }

  /** Lengths are counted as JavaScript counts them: a title of two
      characters from outside the Basic Multilingual Plane is long enough. */
  lemma AstralTitleIsLongEnough(v: FormValues)
    requires v.title == "\U{1F4C5}\U{1F4C5}"
    ensures TitleTooShort !in ValidationErrors(v)
  {
  }

  /** Submitting the form as it opens reports the empty title and name and
      the missing start time, and nothing else. */
  lemma DefaultFormIsInvalid(today: Instant)
    ensures ValidationErrors(DefaultValues(today)) == [TitleTooShort, NameMissing, StartTimeMissing]
  {
  }

  // ---------------------------------------------------------------------------
  // Building the request

  /** `.map(email => email.trim())`. */
  function TrimEach(pieces: seq<string>): (trimmed: seq<string>)
    ensures |trimmed| == |pieces|
    ensures forall i :: 0 <= i < |pieces| ==> trimmed[i] == Text.Trim(pieces[i])
  {
    seq(|pieces|, i requires 0 <= i < |pieces| => Text.Trim(pieces[i]))
  }

  lemma TrimEachOfTrimmed(pieces: seq<string>)
    requires forall i :: 0 <= i < |pieces| ==> Text.Trimmed(pieces[i])
    ensures TrimEach(pieces) == pieces
  {
    forall i | 0 <= i < |pieces|
      ensures TrimEach(pieces)[i] == pieces[i]
    {
      Text.TrimOfTrimmed(pieces[i]);
    }
  }

  /** The attendee field: empty or absent gives no attendees; otherwise the
      text split at every ',' with each piece trimmed. Empty pieces are kept
      and duplicates are not removed. */
  function SplitAttendees(field: Option<string>): (attendees: seq<string>)
    ensures field.None? || field == Some("") ==> attendees == []
    ensures field.Some? && field.value != "" ==>
              && |attendees| == Text.Count(field.value, ',') + 1
              && forall i :: 0 <= i < |attendees| ==>
                   attendees[i] == Text.Trim(Text.Split(field.value, ',')[i])
  {
    match field
    case None => []
    case Some(text) =>
      if text == "" then [] else TrimEach(Text.Split(text, ','))
  }

  /** Addresses typed without commas or surrounding blanks and joined with
      ',' come back unchanged, in order and with repetitions. */
  lemma AttendeesRoundTrip(emails: seq<string>)
    requires |emails| >= 1 && Text.Join(emails, ',') != ""
    requires forall i :: 0 <= i < |emails| ==> ',' !in emails[i] && Text.Trimmed(emails[i])
    ensures SplitAttendees(Some(Text.Join(emails, ','))) == emails
  {
    var text := Text.Join(emails, ',');
    Text.SplitJoin(emails, ',');
    assert SplitAttendees(Some(text)) == TrimEach(emails);
    TrimEachOfTrimmed(emails);
  }

  datatype SubmitError = Invalid(errors: seq<FormError>) | InvalidStartTime

  /** The request `onSubmit` passes to `createBooking`. */
  function BuildRequest(v: FormValues): (r: Result<CreateBookingParams, SubmitError>)
    ensures r.Success? <==>
              |ValidationErrors(v)| == 0 && ParseSlot(v.startTime.value).Some?
    ensures |ValidationErrors(v)| > 0 ==> r == Failure(Invalid(ValidationErrors(v)))
    ensures r.Success? ==>
              var p := r.value;
              var (h, m) := ParseSlot(v.startTime.value).value;
              && p.startTime == v.date.value + h * MsPerHour + m * MsPerMinute
              && p.endTime - p.startTime == v.duration.value * MsPerMinute
              && p.userId == "guest" && p.title == v.title && p.createdBy == v.bookedBy
              && p.description == (if v.description.Some? then v.description.value else "")
              && p.attendees == Some(SplitAttendees(v.attendees))
              && p.durationMinutes == v.duration
  {
    var errors := ValidationErrors(v);
    if |errors| > 0 then Failure(Invalid(errors))
    else
      match ParseSlot(v.startTime.value)
      case None => Failure(InvalidStartTime)
      case Some((h, m)) =>
        var start := v.date.value + h * MsPerHour + m * MsPerMinute;
        var end := start + v.duration.value * MsPerMinute;
        Success(CreateBookingParams("guest", v.title, v.description.ValueOr(""), start, end,
                                    Some(SplitAttendees(v.attendees)), v.bookedBy, v.duration))
  }

  /** A valid form whose start time reads as `h:m` asks for that time of the chosen day. */
  lemma RequestStartsAtReadTime(v: FormValues, h: nat, m: nat)
    requires v.startTime.Some? && ParseSlot(v.startTime.value) == Some((h, m))
    requires Text.JsLength(v.title) >= 3 && Text.JsLength(v.bookedBy) >= 2 && v.date.Some? && v.duration.Some?
    ensures BuildRequest(v).Success?
    ensures BuildRequest(v).value.startTime == v.date.value + h * MsPerHour + m * MsPerMinute
  {
    assert ValidationErrors(v) == [];
  }

  lemma ClockOffset(h: int, m: int)
    ensures h * MsPerHour + m * MsPerMinute == (h * 60 + m) * MsPerMinute
  {
  }

  /** A request built from a slot starts at that slot on the chosen day. */
  lemma SlotRequestStartsAtSlot(v: FormValues, i: nat)
    requires i < SlotCount && v.startTime == Some(TimeSlots[i])
    requires Text.JsLength(v.title) >= 3 && Text.JsLength(v.bookedBy) >= 2 && v.date.Some? && v.duration.Some?
    ensures BuildRequest(v).Success?
    ensures BuildRequest(v).value.startTime == v.date.value + SlotOffset(i) * MsPerMinute
  {
    var h, m := SlotHour(i), SlotMinute(i);
    SlotReadsBack(i);
    assert ParseSlot(v.startTime.value) == Some((h, m));
    RequestStartsAtReadTime(v, h, m);
    assert BuildRequest(v).value.startTime == v.date.value + h * MsPerHour + m * MsPerMinute;
    ClockOffset(h, m);
    assert SlotOffset(i) == h * 60 + m;
  }

  /** The duration sent with a form-built request is the chosen one, and it
      is also what the store computes from the request's instants. */
  lemma FormDurationAgrees(v: FormValues)
    requires BuildRequest(v).Success?
    ensures BookingApi.CalculateDuration(BuildRequest(v).value.startTime, BuildRequest(v).value.endTime)
         == v.duration.value
    ensures BuildRequest(v).value.durationMinutes == v.duration
  {
    var p := BuildRequest(v).value;
    BookingApi.DurationOfWholeMinutes(p.startTime, v.duration.value);
    assert p.endTime == p.startTime + v.duration.value * MsPerMinute;
  }

  /** Every offered duration yields an interval that ends after it starts. */
  lemma OfferedDurationsGoForward(v: FormValues)
    requires BuildRequest(v).Success? && v.duration.value in DurationOptions
    ensures BuildRequest(v).value.endTime > BuildRequest(v).value.startTime
  {
  }

  /** A form-built booking, once `createBooking` accepts it, reports the
      chosen duration, which agrees with the duration recomputed from its
      instants. */
  lemma CreatedFormBookingKeepsDuration(v: FormValues, store: seq<Row>, conflictQueryFails: bool,
                                        newId: string, now: Instant)
    requires BuildRequest(v).Success? && v.duration.value in DurationOptions
    requires BookingApi.CreateBooking(store, BuildRequest(v).value, conflictQueryFails, false, newId, now).Success?
    ensures var b := BookingApi.CreateBooking(store, BuildRequest(v).value, conflictQueryFails, false, newId, now).value.booking;
            b.durationMinutes == v.duration
            && b.durationMinutes == Some(BookingApi.CalculateDuration(b.startTime, b.endTime))
  {
    FormDurationAgrees(v);
  }
}

=== FILE: booking_list.dfy ===
/** The booking list and its cards: the duration label, the past/upcoming
    badge, when the cancel button is offered, and the empty-list message.
    Dates rendered through `date-fns` `format` are not modelled. */
module BookingList {
  import opened Wrappers
  import opened BookingTypes
  import Text
  import BookingApi
  import Dashboard
  import Auth

  function HourUnit(hours: int): string
  {
    if hours > 1 then " hours" else " hour"
  }

  /** The label `formatDuration` builds from a rounded minute count. Counts
      below 60 (negative ones included) are "<n> minutes", even for 1;
      otherwise whole hours, then the remaining minutes if there are any. */
  function DurationText(minutes: int): string
  {
    if minutes < 60 then Text.IntToString(minutes) + " minutes"
    else
      var hours := minutes / 60;
      var rest := minutes % 60;
      if rest == 0 then Text.NatToString(hours) + HourUnit(hours)
      else Text.NatToString(hours) + (HourUnit(hours) + MinutesSuffix(rest))
  }

  function MinutesSuffix(m: nat): string
  {
    " " + (Text.NatToString(m) + " minutes")
  }

  /** `formatDuration`: the label reads back as the minute count
      `calculateDuration` gives for the same instants, and it is the only
      text that does. */
  function FormatDuration(start: Instant, end: Instant): (text: string)
    ensures ParseDurationText(text) == Some(BookingApi.CalculateDuration(start, end))
    ensures forall t :: ParseDurationText(t) == Some(BookingApi.CalculateDuration(start, end)) ==> t == text
  {
    DurationTextRoundTrip(BookingApi.CalculateDuration(start, end));
    OnlyLabelOfCount(BookingApi.CalculateDuration(start, end));
    DurationText(BookingApi.CalculateDuration(start, end))
  }

  /** Reads a number written without leading zeros followed by exactly
      `suffix`. */
  function NumberThen(t: string, suffix: string): Option<nat>
  {
    var digits := Text.LeadingDigits(t);
    if Text.Canonical(digits) && t[|digits|..] == suffix then Some(Text.ParseNat(digits)) else None
  }

  /** The minus sign is written only in front of a count below zero. */
  function NegativeMinutes(n: Option<nat>): Option<int>
  {
    match n
    case Some(v) => if v > 0 then Some(-(v as int)) else None
    case None => None
  }

  /** Leftover minutes after the hours are written only when there are
      between 1 and 59 of them. */
  function PlusMinutes(base: int, n: Option<nat>): Option<int>
  {
    match n
    case Some(v) => if 1 <= v < 60 then Some(base + v) else None
    case None => None
  }

  /** Reads what follows the leading number `n` of a label, accepting only
      the units `formatDuration` would write after that number: "minutes"
      below an hour, "hour" after 1, "hours" after more. */
  function UnitsAfter(n: nat, rest: string): Option<int>
  {
    if rest == " minutes" then (if n < 60 then Some(n) else None)
    else if rest == " hour" then (if n == 1 then Some(60) else None)
    else if rest == " hours" then (if n > 1 then Some(n * 60) else None)
    else if |rest| >= 6 && rest[..6] == " hour " then
      (if n == 1 then PlusMinutes(60, NumberThen(rest[6..], " minutes")) else None)
    else if |rest| >= 7 && rest[..7] == " hours " then
      (if n > 1 then PlusMinutes(n * 60, NumberThen(rest[7..], " minutes")) else None)
    else None
  }

  /** Reads a duration label back to its minute count; anything other than
      a label in the exact form `formatDuration` writes reads as `None`. */
  function ParseDurationText(t: string): Option<int>
  {
    if |t| > 0 && t[0] == '-' then NegativeMinutes(NumberThen(t[1..], " minutes"))
    else
      var digits := Text.LeadingDigits(t);
      if Text.Canonical(digits) then UnitsAfter(Text.ParseNat(digits), t[|digits|..]) else None
  }

  /** A label that starts with a number is read as that number followed by
      its units. */
  lemma ReadsLeadingNumber(n: nat, rest: string)
    requires |rest| > 0 && !Text.IsDigit(rest[0])
    ensures ParseDurationText(Text.NatToString(n) + rest) == UnitsAfter(n, rest)
  {
    var digits := Text.NatToString(n);
    var t := digits + rest;
    Text.LeadingDigitsOfNumber(digits, rest);
    assert t[|digits|..] == rest;
    assert t[0] == digits[0];
  }

  lemma NumberThenReadsNumber(n: nat, suffix: string)
    requires |suffix| > 0 && !Text.IsDigit(suffix[0])
    ensures NumberThen(Text.NatToString(n) + suffix, suffix) == Some(n)
  {
    var t := Text.NatToString(n) + suffix;
    Text.LeadingDigitsOfNumber(Text.NatToString(n), suffix);
    assert t[|Text.NatToString(n)|..] == suffix;
  }

  /** The converse: whatever `NumberThen` accepts is the number as `String`
      writes it, then the suffix. */
  lemma NumberThenIsNumber(t: string, suffix: string, v: nat)
    requires NumberThen(t, suffix) == Some(v)
    ensures t == Text.NatToString(v) + suffix
  {
    var digits := Text.LeadingDigits(t);
    Text.CanonicalReadsBack(digits);
    assert t == digits + t[|digits|..];
  }

  /** The label of a negative count. */
  lemma NegativeText(minutes: int)
    requires minutes < 0
    ensures DurationText(minutes) == "-" + (Text.NatToString(-minutes) + " minutes")
  {
  }

  lemma NegativeLabelReadsBack(n: nat)
    requires n > 0
    ensures ParseDurationText("-" + (Text.NatToString(n) + " minutes")) == Some(-(n as int))
  {
    var tail := Text.NatToString(n) + " minutes";
    assert ("-" + tail)[1..] == tail;
    ReadsMinusSign("-" + tail);
    NumberThenReadsNumber(n, " minutes");
  }

  lemma ReadsMinusSign(t: string)
    requires |t| > 0 && t[0] == '-'
    ensures ParseDurationText(t) == NegativeMinutes(NumberThen(t[1..], " minutes"))
  {
  }

  lemma NegativeDurationRoundTrip(minutes: int)
    requires minutes < 0
    ensures ParseDurationText(DurationText(minutes)) == Some(minutes)
  {
    var shown := "-" + (Text.NatToString(-minutes) + " minutes");
    assert DurationText(minutes) == shown by {
      NegativeText(minutes);
    }
    NegativeLabelReadsBack(-minutes);
  }

  lemma HoursAndMinutesRoundTrip(minutes: int)
    requires minutes >= 60 && minutes % 60 != 0
    ensures ParseDurationText(DurationText(minutes)) == Some(minutes)
  {
    var hours: nat, m: nat := minutes / 60, minutes % 60;
    assert hours * 60 + m == minutes;
    HoursAndMinutesText(minutes);
    HoursLabelReadsBack(hours, m);
  }

  lemma MinutesOnlyRoundTrip(minutes: int)
    requires 0 <= minutes < 60
    ensures ParseDurationText(DurationText(minutes)) == Some(minutes)
  {
    ReadsLeadingNumber(minutes, " minutes");
  }

  lemma WholeHoursRoundTrip(minutes: int)
    requires minutes >= 60 && minutes % 60 == 0
    ensures ParseDurationText(DurationText(minutes)) == Some(minutes)
  {
    var hours := minutes / 60;
    assert hours * 60 == minutes;
    ReadsLeadingNumber(hours, HourUnit(hours));
  }

  lemma HoursThenMinutesRead(hours: nat, m: nat)
    requires hours >= 1 && 1 <= m < 60
    ensures UnitsAfter(hours, HourUnit(hours) + MinutesSuffix(m)) == Some(hours * 60 + m)
  {
    if hours > 1 {
      ManyHoursThenMinutes(hours, m);
    } else {
      OneHourThenMinutes(m);
    }
  }

  lemma OneHourThenMinutes(m: nat)
    requires 1 <= m < 60
    ensures UnitsAfter(1, " hour" + MinutesSuffix(m)) == Some(60 + m)
  {
    var tail := Text.NatToString(m) + " minutes";
    NumberThenReadsNumber(m, " minutes");
    assert " hour" + MinutesSuffix(m) == " hour " + tail;
    OneHourThenMinutesRead(tail);
  }

  lemma ManyHoursThenMinutes(hours: nat, m: nat)
    requires hours > 1 && 1 <= m < 60
    ensures UnitsAfter(hours, " hours" + MinutesSuffix(m)) == Some(hours * 60 + m)
  {
    var tail := Text.NatToString(m) + " minutes";
    NumberThenReadsNumber(m, " minutes");
    assert " hours" + MinutesSuffix(m) == " hours " + tail;
    ManyHoursThenMinutesRead(hours, tail);
  }

  lemma OneHourThenMinutesRead(tail: string)
    requires |tail| >= 9
    ensures UnitsAfter(1, " hour " + tail) == PlusMinutes(60, NumberThen(tail, " minutes"))
  {
    var rest := " hour " + tail;
    assert rest[1] == 'h' && " minutes"[1] == 'm';
    assert rest != " minutes" && rest != " hour" && rest != " hours";
    assert rest[..6] == " hour " && rest[6..] == tail;
  }

  lemma ManyHoursThenMinutesRead(hours: nat, tail: string)
    requires hours > 1 && |tail| >= 9
    ensures UnitsAfter(hours, " hours " + tail) == PlusMinutes(hours * 60, NumberThen(tail, " minutes"))
  {
    var rest := " hours " + tail;
    assert rest[1] == 'h' && " minutes"[1] == 'm';
    assert rest != " minutes" && rest != " hour" && rest != " hours";
    assert rest[5] == 's' && " hour "[5] == ' ';
    assert rest[..6] != " hour ";
    assert rest[..7] == " hours " && rest[7..] == tail;
  }

  /** The label of a count with hours and leftover minutes. */
  lemma HoursAndMinutesText(minutes: int)
    requires minutes >= 60 && minutes % 60 != 0
    ensures DurationText(minutes)
         == Text.NatToString(minutes / 60) + (HourUnit(minutes / 60) + MinutesSuffix(minutes % 60))
  {
  }

  lemma HoursLabelReadsBack(hours: nat, m: nat)
    requires hours >= 1 && 1 <= m < 60
    ensures ParseDurationText(Text.NatToString(hours) + (HourUnit(hours) + MinutesSuffix(m)))
         == Some(hours * 60 + m)
  {
    var rest := HourUnit(hours) + MinutesSuffix(m);
    assert rest[0] == ' ';
    ReadsLeadingNumber(hours, rest);
    HoursThenMinutesRead(hours, m);
  }

  /** The label determines the minute count: reading it back gives the
      count it was built from, so distinct durations get distinct labels. */
  lemma DurationTextRoundTrip(minutes: int)
    ensures ParseDurationText(DurationText(minutes)) == Some(minutes)
  {
    if minutes < 0 {
      NegativeDurationRoundTrip(minutes);
    } else if minutes < 60 {
      MinutesOnlyRoundTrip(minutes);
    } else if minutes % 60 == 0 {
      WholeHoursRoundTrip(minutes);
    } else {
      HoursAndMinutesRoundTrip(minutes);
    }
  }

  /** Hours followed by leftover minutes that read as `n` are the label of `n`. */
  lemma MixedIsDurationText(hours: nat, tail: string, n: int)
    requires hours >= 1
    requires PlusMinutes(hours * 60, NumberThen(tail, " minutes")) == Some(n)
    ensures Text.NatToString(hours) + (HourUnit(hours) + (" " + tail)) == DurationText(n)
  {
    var m := NumberThen(tail, " minutes").value;
    assert 1 <= m < 60 && n == hours * 60 + m;
    NumberThenIsNumber(tail, " minutes", m);
    DivModUnique(n, 60, hours, m);
    HoursAndMinutesText(n);
  }

  /** Units that read as `n` after the number `d` complete the label of `n`. */
  lemma UnitsAfterIsDurationText(d: nat, rest: string, n: int)
    requires UnitsAfter(d, rest) == Some(n)
    ensures Text.NatToString(d) + rest == DurationText(n)
  {
    if rest == " minutes" {
    } else if rest == " hour" {
      assert Text.NatToString(1) == "1";
    } else if rest == " hours" {
      DivModUnique(n, 60, d, 0);
    } else if |rest| >= 6 && rest[..6] == " hour " {
      MixedAfterOneHour(rest, n);
    } else {
      MixedAfterHours(d, rest, n);
    }
  }

  lemma MixedAfterOneHour(rest: string, n: int)
    requires |rest| >= 6 && rest[..6] == " hour "
    requires PlusMinutes(60, NumberThen(rest[6..], " minutes")) == Some(n)
    ensures Text.NatToString(1) + rest == DurationText(n)
  {
    assert rest == " hour" + (" " + rest[6..]);
    MixedIsDurationText(1, rest[6..], n);
  }

  lemma MixedAfterHours(d: nat, rest: string, n: int)
    requires |rest| >= 7 && rest[..7] == " hours "
    requires d > 1 && PlusMinutes(d * 60, NumberThen(rest[7..], " minutes")) == Some(n)
    ensures Text.NatToString(d) + rest == DurationText(n)
  {
    assert rest == " hours" + (" " + rest[7..]);
    MixedIsDurationText(d, rest[7..], n);
  }

  /** The parser accepts one label per count: any text that reads as `n`
      is the label `formatDuration` writes for `n`. */
  lemma ReadBackIsDurationText(t: string, n: int)
    requires ParseDurationText(t) == Some(n)
    ensures t == DurationText(n)
  {
    if |t| > 0 && t[0] == '-' {
      NegativeReadBack(t, n);
    } else {
      var digits := Text.LeadingDigits(t);
      PositiveReadBack(t, digits, n);
    }
  }

  lemma NegativeReadBack(t: string, n: int)
    requires |t| > 0 && t[0] == '-'
    requires NegativeMinutes(NumberThen(t[1..], " minutes")) == Some(n)
    ensures t == DurationText(n)
  {
    var v := NumberThen(t[1..], " minutes").value;
    NumberThenIsNumber(t[1..], " minutes", v);
    assert t == "-" + t[1..];
    NegativeText(n);
  }

  lemma PositiveReadBack(t: string, digits: string, n: int)
    requires digits == Text.LeadingDigits(t) && Text.Canonical(digits)
    requires UnitsAfter(Text.ParseNat(digits), t[|digits|..]) == Some(n)
    ensures t == DurationText(n)
  {
    Text.CanonicalReadsBack(digits);
    assert t == digits + t[|digits|..];
    UnitsAfterIsDurationText(Text.ParseNat(digits), t[|digits|..], n);
  }

  lemma OnlyLabelOfCount(n: int)
    ensures forall t :: ParseDurationText(t) == Some(n) ==> t == DurationText(n)
  {
    forall t | ParseDurationText(t) == Some(n)
      ensures t == DurationText(n)
    {
      ReadBackIsDurationText(t, n);
    }
  }

  /** A single minute is labelled "1 minutes": only the hour unit is
      made singular. */
  lemma OneMinuteLabel()
    ensures DurationText(1) == "1 minutes"
  {
  }

  lemma HourLabels()
    ensures DurationText(60) == "1 hour"
    ensures DurationText(120) == "2 hours"
  {
  }

  lemma ThirtyMinutesSuffix()
    ensures MinutesSuffix(30) == " 30 minutes"
  {
    assert Text.NatToString(30) == "30" by {
      assert Text.NatToString(3) == "3";
      assert Text.DigitChar(0) == '0';
    }
  }

  lemma HalfHourLabel(h: nat, units: string, shown: string)
    requires h >= 1 && units == HourUnit(h)
    requires shown == Text.NatToString(h) + (units + " 30 minutes")
    ensures DurationText(h * 60 + 30) == shown
  {
    DivModUnique(h * 60 + 30, 60, h, 30);
    HoursAndMinutesText(h * 60 + 30);
    ThirtyMinutesSuffix();
  }

  lemma NinetyMinutesLabel()
    ensures DurationText(90) == "1 hour 30 minutes"
  {
    var one := Text.NatToString(1);
    assert one == "1";
    assert one + (" hour" + " 30 minutes") == "1 hour 30 minutes";
    HalfHourLabel(1, " hour", "1 hour 30 minutes");
  }

  lemma HundredFiftyMinutesLabel()
    ensures DurationText(150) == "2 hours 30 minutes"
  {
    var two := Text.NatToString(2);
    assert two == "2";
    assert two + (" hours" + " 30 minutes") == "2 hours 30 minutes";
    HalfHourLabel(2, " hours", "2 hours 30 minutes");
  }

  /** The card's `isPast`: the booking ended strictly before `now`. It
      agrees with the dashboard's past tab except at the end instant itself. */
  function IsPast(b: Booking, now: Instant): (past: bool)
    ensures past <==> b in Dashboard.PastBookings([b], now) && b.endTime != now
  {
    b.endTime < now
  }

  function BadgeLabel(b: Booking, now: Instant): string
  {
    if IsPast(b, now) then "Past" else "Upcoming"
  }

  /** The cancel button is offered on a card that is not past, to its owner
      or to an admin: never when signed out, never on a card badged "Past",
      and on every "Upcoming" card for the owner or an admin. */
  function ShowCancelButton(b: Booking, user: Option<Auth.User>, now: Instant): (show: bool)
    ensures user.None? ==> !show
    ensures show ==> BadgeLabel(b, now) == "Upcoming"
    ensures user.Some? && (user.value.id == b.userId || user.value.isAdmin) ==>
              (show <==> BadgeLabel(b, now) == "Upcoming")
    ensures user.Some? && user.value.id != b.userId && !user.value.isAdmin ==> !show
  {
    !IsPast(b, now) && user.Some? && (user.value.id == b.userId || user.value.isAdmin)
  }

  datatype CardView = CardView(id: string, title: string, bookedBy: string, badge: string,
                               duration: string, showCancel: bool)

  function RenderCard(b: Booking, user: Option<Auth.User>, now: Instant): CardView
  {
    CardView(b.id, b.title, b.createdBy, BadgeLabel(b, now),
             FormatDuration(b.startTime, b.endTime), ShowCancelButton(b, user, now))
  }

  datatype ListView = NoBookingsFound | Cards(cards: seq<CardView>)

  /** `BookingList`: the "No bookings found" message for an empty list,
      otherwise one card per booking in list order. */
  function RenderBookingList(bookings: seq<Booking>, user: Option<Auth.User>, now: Instant): (v: ListView)
    ensures v.NoBookingsFound? <==> |bookings| == 0
    ensures v.Cards? ==> |v.cards| == |bookings|
    ensures v.Cards? ==> forall i :: 0 <= i < |bookings| ==>
              v.cards[i] == RenderCard(bookings[i], user, now)
  {
    if |bookings| == 0 then NoBookingsFound
    else Cards(seq(|bookings|, i requires 0 <= i < |bookings| => RenderCard(bookings[i], user, now)))
  }

  /** The card and the dashboard disagree exactly at a booking's end
      instant: the dashboard files it under past while its card shows
      "Upcoming" and, to an admin, still offers the cancel button. */
  lemma CardAndTabDisagreeAtEnd(bookings: seq<Booking>, i: nat, admin: Auth.User)
    requires i < |bookings| && admin.isAdmin
    ensures var now := bookings[i].endTime;
            && bookings[i] in Dashboard.PastBookings(bookings, now)
            && bookings[i] !in Dashboard.UpcomingBookings(bookings, now)
            && RenderCard(bookings[i], Some(admin), now).badge == "Upcoming"
            && RenderCard(bookings[i], Some(admin), now).showCancel
  {
  }

  /** Everywhere else they agree: in the upcoming tab every card says
      "Upcoming", and in the past tab a card says "Upcoming" only when the
      booking ends exactly at `now`. */
  lemma CardAgreesWithTabOtherwise(bookings: seq<Booking>, now: Instant)
    ensures forall b :: b in Dashboard.UpcomingBookings(bookings, now) ==> BadgeLabel(b, now) == "Upcoming"
    ensures forall b :: b in Dashboard.PastBookings(bookings, now) ==>
              (BadgeLabel(b, now) == "Upcoming" <==> b.endTime == now)
  {
    var up := Dashboard.UpcomingBookings(bookings, now);
    var past := Dashboard.PastBookings(bookings, now);
    assert forall b :: b in up ==> b.endTime > now;
    assert forall b :: b in past ==> b.endTime <= now;
  }

  /** Listed bookings all carry the user id 'guest', which no signed-in
      user has, so only admins are ever offered the cancel button. */
  lemma OnlyAdminsMayCancelListedBookings(store: seq<Row>, queryFails: bool, i: nat,
                                          user: Auth.User, now: Instant)
    requires i < |BookingApi.GetBookings(store, queryFails)|
    requires user.id != "guest"
    ensures var b := BookingApi.GetBookings(store, queryFails)[i];
            ShowCancelButton(b, Some(user), now) <==> !IsPast(b, now) && user.isAdmin
  {
  }
}

=== FILE: booking_timer.dfy ===
/** The live countdown shown for a booking: a tick computes the time left
    until the booking's end from the current instant, and the display shows
    it as zero-padded `HH:MM:SS` or, once over, "Booking Ended". The
    one-second `setInterval` schedule that drives the ticks is not modelled;
    a run of ticks is a sequence of instants. */
module BookingTimer {
  import opened BookingTypes
  import Text

  /** What `calculateTimeLeft` stores: nothing once the end has been reached
      (`Ended`, the `null` of the component), otherwise whole hours, minutes
      and seconds. */
  datatype TimeLeft = Ended | Remaining(hours: nat, minutes: nat, seconds: nat)

  function ClockMillis(hours: nat, minutes: nat, seconds: nat): int
  {
    hours * MsPerHour + minutes * MsPerMinute + seconds * MsPerSecond
  }

  /** `calculateTimeLeft`: the booking has ended when no time is left;
      otherwise the remaining milliseconds, truncated to whole seconds, as
      hours (unbounded), minutes and seconds (each below 60). */
  function CalculateTimeLeft(endTime: Instant, now: Instant): (t: TimeLeft)
    ensures t.Ended? <==> endTime - now <= 0
    ensures t.Remaining? ==>
              && t.minutes < 60 && t.seconds < 60
              && ClockMillis(t.hours, t.minutes, t.seconds) <= endTime - now
              && endTime - now < ClockMillis(t.hours, t.minutes, t.seconds) + MsPerSecond
  {
    var difference := endTime - now;
    if difference <= 0 then Ended
    else
      var t := Remaining(difference / MsPerHour,
                         (difference % MsPerHour) / MsPerMinute,
                         (difference % MsPerMinute) / MsPerSecond);
      DecomposeMillis(difference);
      t
  }

  lemma DecomposeMillis(d: int)
    requires d > 0
    ensures var h, m, s := d / MsPerHour, (d % MsPerHour) / MsPerMinute, (d % MsPerMinute) / MsPerSecond;
            && 0 <= m < 60 && 0 <= s < 60
            && ClockMillis(h, m, s) <= d < ClockMillis(h, m, s) + MsPerSecond
  {
    var h := d / MsPerHour;
    var r1 := d % MsPerHour;
    var m := r1 / MsPerMinute;
    var r2 := r1 % MsPerMinute;
    assert r1 == m * MsPerMinute + r2;
    assert d == (h * 60 + m) * MsPerMinute + r2;
    DivModUnique(d, MsPerMinute, h * 60 + m, r2);
    var s := r2 / MsPerSecond;
    assert r2 == s * MsPerSecond + r2 % MsPerSecond;
  }

  /** The decomposition is the only one: any hours, minutes and seconds with
      minutes and seconds below 60 that bracket the remaining time to the
      second are what the timer shows. */
  lemma TimeLeftIsUnique(endTime: Instant, now: Instant, h: nat, m: nat, s: nat)
    requires m < 60 && s < 60 && endTime - now > 0
    requires ClockMillis(h, m, s) <= endTime - now < ClockMillis(h, m, s) + MsPerSecond
    ensures CalculateTimeLeft(endTime, now) == Remaining(h, m, s)
  {
    var t := CalculateTimeLeft(endTime, now);
    var d := endTime - now;
    assert h * MsPerHour <= d < h * MsPerHour + MsPerHour;
    assert t.hours == h;
    var r1 := d - h * MsPerHour;
    assert m * MsPerMinute <= r1 < m * MsPerMinute + MsPerMinute;
    assert t.minutes == m;
    assert t.seconds == s;
  }

  /** Once the timer reports `Ended`, it does so at every later instant. */
  lemma EndedIsPermanent(endTime: Instant, now: Instant, later: Instant)
    requires now <= later && CalculateTimeLeft(endTime, now).Ended?
    ensures CalculateTimeLeft(endTime, later).Ended?
  {
  }

  /** The component's state: the stored time left and the `isActive` flag,
      which starts true and is cleared on the first tick that finds the
      booking over. */
  datatype TimerState = TimerState(timeLeft: TimeLeft, isActive: bool)

  /** Before the first tick nothing is stored, so the ended badge shows. */
  const InitialState: TimerState := TimerState(Ended, true)

  /** The first render shows the ended badge for every booking; from the
      first tick on, what is stored is what the clock gives. */
  lemma {:induction false} FirstRenderShowsEnded(endTime: Instant, nows: seq<Instant>)
    requires |nows| > 0
    ensures RenderTimer(InitialState.timeLeft) == "Booking Ended"
    ensures RunTicks(InitialState, endTime, nows).timeLeft == CalculateTimeLeft(endTime, nows[|nows| - 1])
  {
    LastTickDecides(InitialState, endTime, nows);
  }

  /** One run of `calculateTimeLeft` at instant `now`. */
  function Tick(s: TimerState, endTime: Instant, now: Instant): (s': TimerState)
    ensures s'.timeLeft.Ended? <==> endTime <= now
    ensures s'.timeLeft.Ended? ==> !s'.isActive
    ensures s'.timeLeft.Remaining? ==> s'.isActive == s.isActive
  {
    match CalculateTimeLeft(endTime, now)
    case Ended => TimerState(Ended, false)
    case Remaining(h, m, sec) => s.(timeLeft := Remaining(h, m, sec))
  }

  /** The state after a run of ticks at the given instants. */
  function RunTicks(s: TimerState, endTime: Instant, nows: seq<Instant>): TimerState
    decreases |nows|
  {
    if |nows| == 0 then s else RunTicks(Tick(s, endTime, nows[0]), endTime, nows[1..])
  }

  /** What is shown after a run depends only on the last tick's instant: the
      state can be recomputed from the clock at any time. */
  lemma {:induction false} LastTickDecides(s: TimerState, endTime: Instant, nows: seq<Instant>)
    requires |nows| > 0
    ensures RunTicks(s, endTime, nows).timeLeft == CalculateTimeLeft(endTime, nows[|nows| - 1])
    decreases |nows|
  {
    if |nows| > 1 {
      LastTickDecides(Tick(s, endTime, nows[0]), endTime, nows[1..]);
    }
  }

  /** After the end, further ticks change nothing: the ended state is
      terminal and repeating it is idempotent. */
  lemma {:induction false} EndedStateIsTerminal(endTime: Instant, nows: seq<Instant>)
    requires forall i :: 0 <= i < |nows| ==> endTime <= nows[i]
    ensures RunTicks(TimerState(Ended, false), endTime, nows) == TimerState(Ended, false)
    decreases |nows|
  {
    if |nows| > 0 {
      EndedStateIsTerminal(endTime, nows[1..]);
    }
  }

  /** `String(n).padStart(2, "0")`. */
  function Pad2(n: nat): string
  {
    Text.PadStart(Text.NatToString(n), 2, '0')
  }

  function RenderClock(hours: nat, minutes: nat, seconds: nat): string
  {
    Text.Join([Pad2(hours), Pad2(minutes), Pad2(seconds)], ':')
  }

  /** The text the component renders for its stored state: the ended badge,
      or "Time remaining: " and a clock whose three ':'-separated fields are
      each zero-padded to at least two digits and read back as the stored
      hours, minutes and seconds. */
  function RenderTimer(t: TimeLeft): (text: string)
    ensures t.Ended? ==> text == "Booking Ended"
    ensures t.Remaining? ==>
              && |text| > 16 && text[..16] == "Time remaining: "
              && var fields := Text.Split(text[16..], ':');
              && |fields| == 3
              && Text.AllDigits(fields[0]) && Text.AllDigits(fields[1]) && Text.AllDigits(fields[2])
              && (forall i :: 0 <= i < 3 ==> |fields[i]| >= 2)
              && Text.ParseNat(fields[0]) == t.hours
              && Text.ParseNat(fields[1]) == t.minutes
              && Text.ParseNat(fields[2]) == t.seconds
    ensures t.Remaining? ==> text == "Time remaining: " + RenderClock(t.hours, t.minutes, t.seconds)
  {
    match t
    case Ended => "Booking Ended"
    case Remaining(h, m, s) =>
      var clock := RenderClock(h, m, s);
      RenderedClockReadsBack(h, m, s);
      Pad2Reads(h);
      assert |clock| > 0 by {
        assert clock == Pad2(h) + [':'] + Text.Join([Pad2(m), Pad2(s)], ':')
          by { assert [Pad2(h), Pad2(m), Pad2(s)][1..] == [Pad2(m), Pad2(s)]; }
      }
      var text := "Time remaining: " + clock;
      assert text[16..] == clock;
      text
  }

  lemma DigitsHaveNoColon(s: string)
    requires Text.AllDigits(s)
    ensures ':' !in s
  {
  }

  lemma Pad2Reads(n: nat)
    ensures |Pad2(n)| >= 2 && Text.AllDigits(Pad2(n)) && ':' !in Pad2(n)
    ensures Text.ParseNat(Pad2(n)) == n
  {
    Text.PaddedNumberParsesBack(n, 2);
    DigitsHaveNoColon(Pad2(n));
  }

  /** The rendered clock splits at ':' into three fields that read back as
      the hours, minutes and seconds; each field has at least two digits. */
  lemma RenderedClockReadsBack(hours: nat, minutes: nat, seconds: nat)
    ensures var fields := Text.Split(RenderClock(hours, minutes, seconds), ':');
            && |fields| == 3
            && (forall i :: 0 <= i < 3 ==> |fields[i]| >= 2 && Text.AllDigits(fields[i]))
            && Text.ParseNat(fields[0]) == hours
            && Text.ParseNat(fields[1]) == minutes
            && Text.ParseNat(fields[2]) == seconds
  {
    var parts := [Pad2(hours), Pad2(minutes), Pad2(seconds)];
    Pad2Reads(hours);
    Pad2Reads(minutes);
    Pad2Reads(seconds);
    Text.SplitJoin(parts, ':');
  }

  /** Below 100 hours the clock is exactly `HH:MM:SS`. */
  lemma ClockWidth(hours: nat, minutes: nat, seconds: nat)
    requires hours < 100 && minutes < 60 && seconds < 60
    ensures |RenderClock(hours, minutes, seconds)| == 8
  {
    Text.ShortNumberWidth(hours);
    Text.ShortNumberWidth(minutes);
    Text.ShortNumberWidth(seconds);
    assert |Pad2(hours)| == 2 && |Pad2(minutes)| == 2 && |Pad2(seconds)| == 2;
    var parts := [Pad2(hours), Pad2(minutes), Pad2(seconds)];
    assert parts[1..] == [Pad2(minutes), Pad2(seconds)];
    assert parts[1..][1..] == [Pad2(seconds)];
    assert Text.Join(parts[1..], ':') == Pad2(minutes) + [':'] + Pad2(seconds);
    assert RenderClock(hours, minutes, seconds)
        == Pad2(hours) + [':'] + (Pad2(minutes) + [':'] + Pad2(seconds));
  }

  /** Different states render differently: the text shown determines the
      stored time left. */
  lemma RenderTimerIsInjective(t1: TimeLeft, t2: TimeLeft)
    requires RenderTimer(t1) == RenderTimer(t2)
    ensures t1 == t2
  {
    if t1.Remaining? && t2.Remaining? {
      assert RenderTimer(t1)[16..] == RenderTimer(t2)[16..];
    }
  }
}

=== FILE: booking_types.dfy ===
/** The records of the booking domain. Instants are whole milliseconds since
    the epoch; the ISO-8601 strings the application passes around are one
    rendering of them. */
module BookingTypes {
  import opened Wrappers

  type Instant = int

  const MsPerSecond: int := 1000
  const MsPerMinute: int := 60 * MsPerSecond
  const MsPerHour: int := 60 * MsPerMinute

  /** A booking as the application shows it. `attendees` is always present;
      `durationMinutes` may be missing. */
  datatype Booking = Booking(
    id: string,
    userId: string,
    title: string,
    description: string,
    startTime: Instant,
    endTime: Instant,
    attendees: seq<string>,
    createdBy: string,
    createdAt: Instant,
    durationMinutes: Option<int>)

  /** A creation request: no id and no creation instant (the store assigns
      both); attendees and duration are optional. */
  datatype CreateBookingParams = CreateBookingParams(
    userId: string,
    title: string,
    description: string,
    startTime: Instant,
    endTime: Instant,
    attendees: Option<seq<string>>,
    createdBy: string,
    durationMinutes: Option<int>)

  /** One row of the `bookings` table. `description` and `attendees` are
      nullable columns; the booker's name is stored as `booked_by`. */
  datatype Row = Row(
    id: string,
    title: string,
    description: Option<string>,
    bookedBy: string,
    startTime: Instant,
    endTime: Instant,
    attendees: Option<seq<string>>,
    createdAt: Instant)

  /** Two intervals overlap under half-open `[start, end)` semantics:
      intervals that merely touch do not overlap. */
  predicate Overlaps(aStart: Instant, aEnd: Instant, bStart: Instant, bEnd: Instant)
  {
    aStart < bEnd && aEnd > bStart
  }

  lemma {:induction false} MulAtLeast(a: int, k: int)
    requires a >= 1 && k > 0
    ensures a * k >= k
  {
    if a > 1 {
      MulAtLeast(a - 1, k);
      assert a * k == (a - 1) * k + k;
    }
  }

  /** Quotient and remainder are determined by `n == q * k + r` with `0 <= r < k`. */
  lemma DivModUnique(n: int, k: int, q: int, r: int)
    requires k > 0 && 0 <= r < k && n == q * k + r
    ensures n / k == q && n % k == r
  {
    var q0, r0 := n / k, n % k;
    assert n == q0 * k + r0;
    assert (q - q0) * k == r0 - r;
    if q > q0 {
      MulAtLeast(q - q0, k);
    } else if q < q0 {
      assert (q0 - q) * k == r - r0;
      MulAtLeast(q0 - q, k);
    }
  }
}

=== FILE: corrected.dfy ===
/** The conflict check as its authors evidently meant it, and the
    one-room invariant it protects.

    The query in `checkBookingConflicts` joins two inclusive bounds with
    `or`, which every well-formed stored booking satisfies (see
    `BookingApi.ConflictIffStoreNonEmpty`). The intended filter joins two
    strict bounds with `and`: a stored booking conflicts when it starts
    before the candidate ends AND ends after the candidate starts. With that
    filter, creation and cancellation keep the table free of overlapping
    bookings as long as every conflict query succeeds. Everything else is the
    code as written, including the fail-open query: when the conflict query
    itself errors, any request is inserted, and an overlap can get in
    (`FailOpenAdmitsOverlap`). */
module CorrectedBooking {
  import opened Wrappers
  import opened BookingTypes
  import Seqs
  import BookingApi

  /** Some stored booking overlaps `[start, end)`. */
  predicate OverlapsStored(store: seq<Row>, start: Instant, end: Instant)
  {
    exists i :: 0 <= i < |store| && Overlaps(store[i].startTime, store[i].endTime, start, end)
  }

  /** The one-room invariant: no two stored bookings overlap. */
  predicate NonOverlapping(store: seq<Row>)
  {
    forall i, j :: 0 <= i < j < |store| ==>
      !Overlaps(store[i].startTime, store[i].endTime, store[j].startTime, store[j].endTime)
  }

  /** The check with the filter `start_time.lt.<end>,end_time.gt.<start>`
      combined with `and`; a query error still reads as "no conflict". */
  function CheckOverlap(store: seq<Row>, queryFails: bool, start: Instant, end: Instant): (conflict: bool)
    ensures conflict <==> !queryFails && OverlapsStored(store, start, end)
    ensures conflict ==> BookingApi.CheckBookingConflicts(store, queryFails, start, end)
  {
    var hits := Seqs.Filter(store, (row: Row) => Overlaps(row.startTime, row.endTime, start, end));
    assert |hits| > 0 ==> hits[0] in store;
    !queryFails && |hits| > 0
  }

  /** `createBooking` with the corrected check. When the check's query
      succeeds, a non-overlapping table stays non-overlapping. */
  function CreateBookingCorrected(store: seq<Row>, params: CreateBookingParams,
                                  conflictQueryFails: bool, insertFails: bool,
                                  newId: string, now: Instant): (r: Result<BookingApi.Created, BookingApi.CreateError>)
    ensures r.Success? <==>
              !insertFails && (conflictQueryFails || !OverlapsStored(store, params.startTime, params.endTime))
    ensures r.Success? ==> r.value.store == store + [BookingApi.InsertedRow(params, newId, now)]
    ensures r.Success? ==> r == BookingApi.CreateBooking(store, params, true, insertFails, newId, now)
    ensures r.Success? && !conflictQueryFails && NonOverlapping(store) ==> NonOverlapping(r.value.store)
  {
    if CheckOverlap(store, conflictQueryFails, params.startTime, params.endTime) then
      Failure(BookingApi.SchedulingConflict)
    else
      BookingApi.InsertBooking(store, params, insertFails, newId, now)
  }

  /** Cancelling keeps the table non-overlapping. */
  lemma CancelKeepsNonOverlapping(store: seq<Row>, id: string)
    requires NonOverlapping(store)
    ensures NonOverlapping(BookingApi.CancelBooking(store, id, false).value)
  {
    Seqs.FilterKeepsPairwise(store, (row: Row) => row.id != id,
      (a: Row, b: Row) => !Overlaps(a.startTime, a.endTime, b.startTime, b.endTime));
  }

  /** A write against the table: a creation whose conflict query succeeds,
      or a cancellation; each carries the database's answers. A creation
      whose conflict query errors is not an `Op`: it admits anything. */
  datatype Op =
    | Create(params: CreateBookingParams, insertFails: bool, newId: string, now: Instant)
    | Cancel(id: string, deleteFails: bool)

  /** The table after one operation; a failed operation leaves it as it was. */
  function Apply(store: seq<Row>, op: Op): seq<Row>
  {
    match op
    case Create(params, insertFails, newId, now) =>
      var r := CreateBookingCorrected(store, params, false, insertFails, newId, now);
      if r.Success? then r.value.store else store
    case Cancel(id, deleteFails) =>
      var r := BookingApi.CancelBooking(store, id, deleteFails);
      if r.Success? then r.value else store
  }

  function Run(store: seq<Row>, ops: seq<Op>): seq<Row>
    decreases |ops|
  {
    if |ops| == 0 then store else Run(Apply(store, ops[0]), ops[1..])
  }

  /** Any sequence of corrected creations whose conflict query succeeds, and
      of cancellations, keeps the table free of overlapping bookings. */
  lemma {:induction false} RunKeepsNonOverlapping(store: seq<Row>, ops: seq<Op>)
    requires NonOverlapping(store)
    ensures NonOverlapping(Run(store, ops))
    decreases |ops|
  {
    if |ops| > 0 {
      if ops[0].Cancel? && !ops[0].deleteFails {
        CancelKeepsNonOverlapping(store, ops[0].id);
      }
      RunKeepsNonOverlapping(Apply(store, ops[0]), ops[1..]);
    }
  }

  /** The row of the first scenario: 10:00 to 11:00 on one day. */
  const MorningRow: Row :=
    Row("b1", "Team Sync", None, "Ann", 10 * MsPerHour, 11 * MsPerHour, None, 0)

  /** A request for 11:00 to 11:30, which only touches the stored booking. */
  const TouchingRequest: CreateBookingParams :=
    CreateBookingParams("guest", "Follow-up", "", 11 * MsPerHour, 11 * MsPerHour + 30 * MsPerMinute,
                        None, "Ann", Some(30))

  /** A request for 14:00 to 15:00 the same day, well clear of the stored booking. */
  const AfternoonRequest: CreateBookingParams :=
    CreateBookingParams("guest", "Review", "", 14 * MsPerHour, 15 * MsPerHour, None, "Bo", Some(60))

  /** A request for 10:30 to 11:30, which overlaps the stored booking. */
  const OverlappingRequest: CreateBookingParams :=
    CreateBookingParams("guest", "Clash", "", 10 * MsPerHour + 30 * MsPerMinute,
                        11 * MsPerHour + 30 * MsPerMinute, None, "Bo", Some(60))

  /** The fail-open query is kept: when the conflict query errors, even the
      corrected creation inserts an overlapping booking. */
  lemma FailOpenAdmitsOverlap()
    ensures NonOverlapping([MorningRow])
    ensures var r := CreateBookingCorrected([MorningRow], OverlappingRequest, true, false, "b2", 0);
            r.Success? && !NonOverlapping(r.value.store)
  {
    var r := CreateBookingCorrected([MorningRow], OverlappingRequest, true, false, "b2", 0);
    var row := BookingApi.InsertedRow(OverlappingRequest, "b2", 0);
    assert r.value.store == [MorningRow, row];
    assert r.value.store[0] == MorningRow && r.value.store[1] == row;
    assert row.startTime == 10 * MsPerHour + 30 * MsPerMinute && row.endTime == 11 * MsPerHour + 30 * MsPerMinute;
    assert Overlaps(r.value.store[0].startTime, r.value.store[0].endTime,
                    r.value.store[1].startTime, r.value.store[1].endTime);
  }

  /** The discrepancy on a concrete input: the code as written rejects a
      booking that does not even touch the stored one; the corrected check
      admits it. */
  lemma DisjointBookingRejectedAsWritten()
    ensures BookingApi.CreateBooking([MorningRow], AfternoonRequest, false, false, "b2", 0)
         == Failure(BookingApi.SchedulingConflict)
    ensures CreateBookingCorrected([MorningRow], AfternoonRequest, false, false, "b2", 0).Success?
  {
    assert BookingApi.MatchesConflictFilter(MorningRow, AfternoonRequest.startTime, AfternoonRequest.endTime);
    assert !Overlaps(MorningRow.startTime, MorningRow.endTime,
                     AfternoonRequest.startTime, AfternoonRequest.endTime);
  }

  /** The discrepancy on a concrete input: the code as written rejects a
      booking that merely touches the stored one; the corrected check admits
      it. */
  lemma TouchingBookingRejectedAsWritten()
    ensures BookingApi.CreateBooking([MorningRow], TouchingRequest, false, false, "b2", 0)
         == Failure(BookingApi.SchedulingConflict)
    ensures CreateBookingCorrected([MorningRow], TouchingRequest, false, false, "b2", 0).Success?
  {
    assert BookingApi.MatchesConflictFilter(MorningRow, TouchingRequest.startTime, TouchingRequest.endTime);
    assert !Overlaps(MorningRow.startTime, MorningRow.endTime,
                     TouchingRequest.startTime, TouchingRequest.endTime);
  }
}

=== FILE: dashboard.dfy ===
/** The dashboard page's logic: which list it fetches, how it splits the
    list into the "Upcoming" and "Past Bookings" tabs, and how it updates
    its local list after a cancellation. */
module Dashboard {
  import opened Wrappers
  import opened BookingTypes
  import Seqs
  import BookingApi
  import Auth

  /** The "Upcoming" tab: bookings whose end is still in the future. */
  function UpcomingBookings(bookings: seq<Booking>, now: Instant): (r: seq<Booking>)
    ensures forall i :: 0 <= i < |r| ==> r[i] in bookings && r[i].endTime > now
    ensures forall i :: 0 <= i < |bookings| && bookings[i].endTime > now ==> bookings[i] in r
  {
    Seqs.Filter(bookings, (b: Booking) => b.endTime > now)
  }

  /** The "Past Bookings" tab: bookings that ended at or before `now`. */
  function PastBookings(bookings: seq<Booking>, now: Instant): (r: seq<Booking>)
    ensures forall i :: 0 <= i < |r| ==> r[i] in bookings && r[i].endTime <= now
    ensures forall i :: 0 <= i < |bookings| && bookings[i].endTime <= now ==> bookings[i] in r
  {
    Seqs.Filter(bookings, (b: Booking) => b.endTime <= now)
  }

  /** For one `now`, the tabs split the list: together they hold every
      booking exactly as often as the list does, and no booking is in both. */
  lemma TabsPartitionBookings(bookings: seq<Booking>, now: Instant)
    ensures multiset(UpcomingBookings(bookings, now)) + multiset(PastBookings(bookings, now))
         == multiset(bookings)
    ensures |UpcomingBookings(bookings, now)| + |PastBookings(bookings, now)| == |bookings|
    ensures forall i :: 0 <= i < |UpcomingBookings(bookings, now)| ==>
              UpcomingBookings(bookings, now)[i] !in PastBookings(bookings, now)
  {
    Seqs.FilterPartition(bookings, (b: Booking) => b.endTime > now, (b: Booking) => b.endTime <= now);
  }

  /** Each tab lists its bookings in the order of the fetched list. */
  lemma TabsKeepOrder(a: seq<Booking>, b: seq<Booking>, now: Instant)
    ensures UpcomingBookings(a + b, now) == UpcomingBookings(a, now) + UpcomingBookings(b, now)
    ensures PastBookings(a + b, now) == PastBookings(a, now) + PastBookings(b, now)
  {
    Seqs.FilterConcat(a, b, (x: Booking) => x.endTime > now);
    Seqs.FilterConcat(a, b, (x: Booking) => x.endTime <= now);
  }

  /** There is no separate group for a meeting in progress: a booking that
      has started and not ended is listed as upcoming. */
  lemma StartedBookingIsUpcoming(bookings: seq<Booking>, i: nat, now: Instant)
    requires i < |bookings| && bookings[i].startTime <= now < bookings[i].endTime
    ensures bookings[i] in UpcomingBookings(bookings, now)
    ensures bookings[i] !in PastBookings(bookings, now)
  {
  }

  /** A booking filed under past stays there at every later instant. */
  lemma PastStaysPast(bookings: seq<Booking>, now: Instant, later: Instant)
    requires now <= later
    ensures forall i :: 0 <= i < |PastBookings(bookings, now)| ==>
              PastBookings(bookings, now)[i] in PastBookings(bookings, later)
  {
  }

  /** `handleCancelBooking`: after `cancelBooking` resolves, the local list
      drops every entry with that id; if it throws, list and table are
      unchanged. Returns the new local list and the new table. */
  function HandleCancelBooking(list: seq<Booking>, store: seq<Row>, id: string, deleteFails: bool)
    : (r: (seq<Booking>, seq<Row>))
    ensures deleteFails ==> r == (list, store)
    ensures !deleteFails ==>
              && (forall i :: 0 <= i < |r.0| ==> r.0[i] in list && r.0[i].id != id)
              && (forall i :: 0 <= i < |list| && list[i].id != id ==> list[i] in r.0)
              && (forall i :: 0 <= i < |r.1| ==> r.1[i] in store && r.1[i].id != id)
              && (forall i :: 0 <= i < |store| && store[i].id != id ==> store[i] in r.1)
  {
    match BookingApi.CancelBooking(store, id, deleteFails)
    case Failure(_) => (list, store)
    case Success(store') => (Seqs.Filter(list, (b: Booking) => b.id != id), store')
  }

  /** The local list keeps the order of the entries that survive, and an id
      absent from the list leaves it as it was. */
  lemma HandleCancelKeepsOrder(a: seq<Booking>, b: seq<Booking>, store: seq<Row>, id: string)
    ensures HandleCancelBooking(a + b, store, id, false).0
         == HandleCancelBooking(a, store, id, false).0 + HandleCancelBooking(b, store, id, false).0
  {
    Seqs.FilterConcat(a, b, (x: Booking) => x.id != id);
  }

  lemma HandleCancelUnknownId(list: seq<Booking>, store: seq<Row>, id: string)
    requires forall i :: 0 <= i < |list| ==> list[i].id != id
    ensures HandleCancelBooking(list, store, id, false).0 == list
  {
    Seqs.FilterKeepsAll(list, (x: Booking) => x.id != id);
  }

  /** The fetch in the page's effect: no session means a redirect to the
      login page (`None`); admins call `getBookings`, others
      `getUserBookings` with their id. */
  function FetchBookings(session: Auth.Session, store: seq<Row>, queryFails: bool): (r: Option<seq<Booking>>)
    ensures r.None? <==> session.currentUser.None?
    ensures r.Some? ==> r.value == BookingApi.GetBookings(store, queryFails)
  {
    match session.currentUser
    case None => None
    case Some(user) =>
      if user.isAdmin then Some(BookingApi.GetBookings(store, queryFails))
      else Some(BookingApi.GetUserBookings(store, queryFails, user.id))
  }

  /** Admins and regular users receive the same list. */
  lemma EveryUserSeesTheSameList(u1: Auth.User, u2: Auth.User, store: seq<Row>, queryFails: bool)
    ensures FetchBookings(Auth.Session(Some(u1)), store, queryFails)
         == FetchBookings(Auth.Session(Some(u2)), store, queryFails)
  {
  }
}

=== FILE: navbar.dfy ===
/** The avatar initials shown in the navigation bar for the signed-in user. */
module Navbar {
  import Text
  import Seqs

  /** `n[0]` as it ends up in the joined text: the first character of a
      segment, or nothing when the segment is empty (`undefined` joins as ""). */
  function FirstChar(segment: string): (c: string)
    ensures |c| == if |segment| == 0 then 0 else 1
    ensures |segment| > 0 ==> c[0] == segment[0]
  {
    if |segment| == 0 then "" else [segment[0]]
  }

  function ConcatFirstChars(segments: seq<string>): string
  {
    if |segments| == 0 then "" else FirstChar(segments[0]) + ConcatFirstChars(segments[1..])
  }

  /** Number of non-empty segments. */
  function NonEmptyCount(segments: seq<string>): nat
  {
    if |segments| == 0 then 0
    else (if |segments[0]| > 0 then 1 else 0) + NonEmptyCount(segments[1..])
  }

  lemma {:induction false} ConcatFirstCharsLength(segments: seq<string>)
    ensures |ConcatFirstChars(segments)| == NonEmptyCount(segments)
  {
    if |segments| > 0 {
      ConcatFirstCharsLength(segments[1..]);
    }
  }

  predicate NonEmpty(segment: string) { |segment| > 0 }

  /** The first character of each of the given words, in order. */
  function Heads(words: seq<string>): (h: string)
    requires forall i :: 0 <= i < |words| ==> |words[i]| > 0
    ensures |h| == |words| && forall i :: 0 <= i < |words| ==> h[i] == words[i][0]
  {
    seq(|words|, i requires 0 <= i < |words| => words[i][0])
  }

  /** Empty segments contribute nothing: the joined first characters are
      the heads of the non-empty segments. */
  lemma {:induction false} ConcatFirstCharsOfNonEmpty(segments: seq<string>)
    ensures ConcatFirstChars(segments) == Heads(Seqs.Filter(segments, NonEmpty))
  {
    if |segments| > 0 {
      ConcatFirstCharsOfNonEmpty(segments[1..]);
      var rest := Seqs.Filter(segments[1..], NonEmpty);
      if |segments[0]| > 0 {
        assert Seqs.Filter(segments, NonEmpty) == [segments[0]] + rest;
        assert Heads([segments[0]] + rest) == [segments[0][0]] + Heads(rest);
      } else {
        assert Seqs.Filter(segments, NonEmpty) == rest;
      }
    }
  }

  /** `getInitials(name)`: the upper-cased first character of every
      non-empty space-separated segment, in order; blanks, wherever they
      are and however many, contribute nothing. */
  function GetInitials(name: string): (initials: string)
    ensures initials == Text.ToUpper(Heads(Seqs.Filter(Text.Split(name, ' '), NonEmpty)))
    ensures |initials| == NonEmptyCount(Text.Split(name, ' '))
    ensures forall i :: 0 <= i < |initials| ==> !Text.IsLower(initials[i])
  {
    var segments := Text.Split(name, ' ');
    ConcatFirstCharsLength(segments);
    ConcatFirstCharsOfNonEmpty(segments);
    Text.ToUpper(ConcatFirstChars(segments))
  }

  lemma {:induction false} FirstCharsOfWords(words: seq<string>)
    requires forall i :: 0 <= i < |words| ==> |words[i]| > 0
    ensures ConcatFirstChars(words) == seq(|words|, i requires 0 <= i < |words| => words[i][0])
  {
    if |words| > 0 {
      FirstCharsOfWords(words[1..]);
    }
  }

  /** Words separated by single spaces give the upper-cased first letter of
      each word, in order. */
  lemma InitialsOfWords(words: seq<string>)
    requires |words| >= 1
    requires forall i :: 0 <= i < |words| ==> |words[i]| > 0 && ' ' !in words[i]
    ensures GetInitials(Text.Join(words, ' '))
         == seq(|words|, i requires 0 <= i < |words| => Text.UpperChar(words[i][0]))
  {
    Text.SplitJoin(words, ' ');
    FirstCharsOfWords(words);
  }

  /** A leading space adds an empty segment, which contributes nothing. */
  lemma LeadingSpaceIgnored(name: string)
    ensures GetInitials(" " + name) == GetInitials(name)
  {
    Text.SplitAtFirstSeparator("", name, ' ');
    assert "" + [' '] + name == " " + name;
    var segments := [""] + Text.Split(name, ' ');
    assert segments[1..] == Text.Split(name, ' ');
  }

  /** An empty segment between two runs of segments is dropped. */
  lemma EmptySegmentDropped(before: seq<string>, after: seq<string>)
    ensures Seqs.Filter(before + ([""] + after), NonEmpty) == Seqs.Filter(before + after, NonEmpty)
  {
    Seqs.FilterConcat(before, [""] + after, NonEmpty);
    Seqs.FilterConcat([""], after, NonEmpty);
    Seqs.FilterConcat(before, after, NonEmpty);
    assert Seqs.Filter([""], NonEmpty) == [];
  }

  /** A doubled space, anywhere in the name, adds an empty segment, which
      contributes nothing. */
  lemma DoubledSpaceIgnored(first: string, rest: string)
    ensures GetInitials(first + "  " + rest) == GetInitials(first + " " + rest)
  {
    var sf, sr := Text.Split(first, ' '), Text.Split(rest, ' ');
    var spaced := " " + rest;
    assert first + "  " + rest == first + [' '] + spaced;
    assert first + " " + rest == first + [' '] + rest;
    Text.SplitAround(first, spaced, ' ');
    Text.SplitAtFirstSeparator("", rest, ' ');
    assert "" + [' '] + rest == spaced;
    EmptySegmentDropped(sf, sr);
    Text.SplitAround(first, rest, ' ');
  }

  /** A trailing space adds an empty segment, which contributes nothing. */
  lemma TrailingSpaceIgnored(name: string)
    ensures GetInitials(name + " ") == GetInitials(name)
  {
    var sn := Text.Split(name, ' ');
    assert name + " " == name + [' '] + "";
    Text.SplitAround(name, "", ' ');
    assert Text.Split("", ' ') == [""];
    Seqs.FilterConcat(sn, [""], NonEmpty);
    assert Seqs.Filter([""], NonEmpty) == [];
    assert Seqs.Filter(sn, NonEmpty) + [] == Seqs.Filter(sn, NonEmpty);
  }

  /** Two words around one space give the upper-cased first letter of each. */
  lemma TwoWordInitials(a: string, b: string)
    requires |a| > 0 && |b| > 0 && ' ' !in a && ' ' !in b
    ensures GetInitials(a + " " + b) == [Text.UpperChar(a[0]), Text.UpperChar(b[0])]
  {
    Text.SplitAtFirstSeparator(a, b, ' ');
    Text.SplitWithoutSeparator(b, ' ');
    assert a + " " + b == a + [' '] + b;
    var segments := [a, b];
    assert segments[1..] == [b];
    assert [b][1..] == [];
    assert ConcatFirstChars([b]) == [b[0]] + ConcatFirstChars([]);
    assert ConcatFirstChars(segments) == [a[0]] + [b[0]];
  }

  /** The initials of the two built-in accounts. */
  lemma MockUserInitials()
    ensures GetInitials("Admin User") == "AU"
    ensures GetInitials("Regular User") == "RU"
  {
    TwoWordInitials("Admin", "User");
    assert "Admin" + " " + "User" == "Admin User";
    TwoWordInitials("Regular", "User");
    assert "Regular" + " " + "User" == "Regular User";
  }
}

=== FILE: seqs.dfy ===
/** Order-preserving selection over sequences: the model of `Array.prototype.filter`. */
module Seqs {

  /** The elements of `s` that satisfy `p`, in their original order. */
  function Filter<T>(s: seq<T>, p: T -> bool): (r: seq<T>)
    ensures |r| <= |s|
    ensures forall i :: 0 <= i < |r| ==> r[i] in s && p(r[i])
    ensures forall i :: 0 <= i < |s| && p(s[i]) ==> s[i] in r
  {
    if |s| == 0 then []
    else if p(s[0]) then [s[0]] + Filter(s[1..], p)
    else Filter(s[1..], p)
  }

  /** Filtering distributes over concatenation: the relative order of the
      kept elements is the order they had in the input. */
  lemma {:induction false} FilterConcat<T>(a: seq<T>, b: seq<T>, p: T -> bool)
    ensures Filter(a + b, p) == Filter(a, p) + Filter(b, p)
  {
    if |a| == 0 {
      assert a + b == b;
    } else {
      assert (a + b)[0] == a[0];
      assert (a + b)[1..] == a[1..] + b;
      FilterConcat(a[1..], b, p);
    }
  }

  /** When every element qualifies, filtering returns the input itself. */
  lemma {:induction false} FilterKeepsAll<T>(s: seq<T>, p: T -> bool)
    requires forall i :: 0 <= i < |s| ==> p(s[i])
    ensures Filter(s, p) == s
  {
    if |s| > 0 {
      FilterKeepsAll(s[1..], p);
      assert [s[0]] + s[1..] == s;
    }
  }

  /** Two complementary filters split the input: every element lands in
      exactly one of the two outputs, counted with multiplicity. */
  lemma {:induction false} FilterPartition<T>(s: seq<T>, p: T -> bool, q: T -> bool)
    requires forall x :: q(x) == !p(x)
    ensures multiset(Filter(s, p)) + multiset(Filter(s, q)) == multiset(s)
    ensures |Filter(s, p)| + |Filter(s, q)| == |s|
  {
    if |s| > 0 {
      FilterPartition(s[1..], p, q);
      assert s == [s[0]] + s[1..];
      assert multiset(s) == multiset{s[0]} + multiset(s[1..]);
    }
  }

  /** A relation that holds between every earlier and later element of `s`
      still holds in any filtered copy of `s`. */
  lemma {:induction false} FilterKeepsPairwise<T>(s: seq<T>, p: T -> bool, rel: (T, T) -> bool)
    requires forall i, j :: 0 <= i < j < |s| ==> rel(s[i], s[j])
    ensures forall i, j :: 0 <= i < j < |Filter(s, p)| ==> rel(Filter(s, p)[i], Filter(s, p)[j])
  {
    if |s| > 0 {
      FilterKeepsPairwise(s[1..], p, rel);
      var tail := Filter(s[1..], p);
      forall k | 0 <= k < |tail|
        ensures rel(s[0], tail[k])
      {
        var m :| 0 <= m < |s[1..]| && s[1..][m] == tail[k];
        assert s[m + 1] == tail[k];
      }
    }
  }
}

=== FILE: text.dfy ===
/** The string operations the application relies on, restricted to ASCII:
    decimal rendering and parsing of non-negative integers (`String(n)`,
    `Number(s)`), `padStart`, `split`/`join` on one separator character,
    `trim` and `toUpperCase`. */
module Text {

  predicate IsDigit(c: char) { '0' <= c <= '9' }

  predicate AllDigits(s: string)
  {
    forall i :: 0 <= i < |s| ==> IsDigit(s[i])
  }

  function DigitValue(c: char): (d: nat)
    requires IsDigit(c)
    ensures d < 10
  {
    c as int - '0' as int
  }

  function DigitChar(d: nat): (c: char)
    requires d < 10
    ensures IsDigit(c) && DigitValue(c) == d
  {
    (d + '0' as int) as char
  }

  /** The value `Number(s)` gives a string of decimal digits: leading zeros
      are ignored and the empty string reads as 0. */
  function ParseNat(s: string): nat
    requires AllDigits(s)
  {
    if |s| == 0 then 0 else ParseNat(s[..|s| - 1]) * 10 + DigitValue(s[|s| - 1])
  }

  /** `String(n)` for a non-negative integer: the canonical decimal digits,
      which read back as `n`. */
  function NatToString(n: nat): (s: string)
    ensures |s| >= 1 && AllDigits(s)
    ensures s[0] == '0' ==> s == "0"
    ensures ParseNat(s) == n
  {
    if n < 10 then
      var s := [DigitChar(n)];
      assert s[..0] == [];
      s
    else
      var prefix := NatToString(n / 10);
      var s := prefix + [DigitChar(n % 10)];
      assert s[..|s| - 1] == prefix;
      s
  }

  /** A decimal numeral as `String(n)` writes it: at least one digit, and no
      leading zero unless the numeral is "0" itself. */
  predicate Canonical(s: string)
  {
    |s| > 0 && AllDigits(s) && (s[0] == '0' ==> |s| == 1)
  }

  lemma {:induction false} ParseNatPositive(s: string)
    requires |s| > 0 && AllDigits(s) && s[0] != '0'
    ensures ParseNat(s) >= 1
  {
    var init := s[..|s| - 1];
    if |s| == 1 {
      assert init == [];
    } else {
      assert init[0] == s[0];
      ParseNatPositive(init);
    }
  }

  /** A numeral without leading zeros is exactly what `String` writes for
      the value it reads as. */
  lemma {:induction false} CanonicalReadsBack(s: string)
    requires Canonical(s)
    ensures NatToString(ParseNat(s)) == s
  {
    var init := s[..|s| - 1];
    var d := DigitValue(s[|s| - 1]);
    assert DigitChar(d) == s[|s| - 1];
    if |s| == 1 {
      assert init == [];
      assert ParseNat(s) == d;
      assert s == [s[0]];
    } else {
      assert init[0] == s[0];
      ParseNatPositive(init);
      CanonicalReadsBack(init);
      var n := ParseNat(s);
      assert n == ParseNat(init) * 10 + d;
      assert n / 10 == ParseNat(init) && n % 10 == d;
      assert s == init + [s[|s| - 1]];
    }
  }

  /** `String(i)` for any integer: a minus sign before the magnitude when negative. */
  function IntToString(i: int): (s: string)
    ensures i >= 0 ==> AllDigits(s) && ParseNat(s) == i
    ensures i < 0 ==> |s| >= 2 && s[0] == '-' && AllDigits(s[1..]) && ParseNat(s[1..]) == -i
  {
    if i < 0 then "-" + NatToString(-i) else NatToString(i)
  }

  /** `s.length` in JavaScript: the number of UTF-16 code units, which is
      two for a character outside the Basic Multilingual Plane and one for
      every other character. */
  function JsLength(s: string): (n: nat)
    ensures |s| <= n <= 2 * |s|
    ensures (forall i :: 0 <= i < |s| ==> s[i] as int < 0x1_0000) ==> n == |s|
  {
    if |s| == 0 then 0
    else
      assert forall i :: 0 <= i < |s[1..]| ==> s[1..][i] == s[i + 1];
      (if s[0] as int < 0x1_0000 then 1 else 2) + JsLength(s[1..])
  }

  function Repeat(c: char, n: nat): (r: string)
    ensures |r| == n && forall i :: 0 <= i < n ==> r[i] == c
  {
    seq(n, _ => c)
  }

  /** `s.padStart(width, fill)` with a one-character fill. */
  function PadStart(s: string, width: nat, fill: char): (r: string)
    ensures |r| == if |s| >= width then |s| else width
    ensures r[|r| - |s|..] == s
    ensures forall i :: 0 <= i < |r| - |s| ==> r[i] == fill
  {
    if |s| >= width then s else Repeat(fill, width - |s|) + s
  }

  lemma ShortNumberWidth(n: nat)
    requires n < 100
    ensures |NatToString(n)| == if n < 10 then 1 else 2
  {
    if n >= 10 {
      assert |NatToString(n / 10)| == 1;
    }
  }

  lemma {:induction false} ParseNatLeadingZero(s: string)
    requires AllDigits(s)
    ensures AllDigits("0" + s) && ParseNat("0" + s) == ParseNat(s)
  {
    var t := "0" + s;
    if |s| == 0 {
      assert t[..0] == [];
    } else {
      var init := s[..|s| - 1];
      assert t[..|t| - 1] == "0" + init;
      assert t[|t| - 1] == s[|s| - 1];
      ParseNatLeadingZero(init);
    }
  }

  /** Zero padding does not change the value a digit string reads as. */
  lemma {:induction false} ParseNatLeadingZeros(k: nat, s: string)
    requires AllDigits(s)
    ensures AllDigits(Repeat('0', k) + s) && ParseNat(Repeat('0', k) + s) == ParseNat(s)
  {
    if k == 0 {
      assert Repeat('0', k) + s == s;
    } else {
      ParseNatLeadingZeros(k - 1, s);
      assert Repeat('0', k) + s == "0" + (Repeat('0', k - 1) + s);
      ParseNatLeadingZero(Repeat('0', k - 1) + s);
    }
  }

  /** A number rendered with `padStart(w, "0")` still reads back as itself. */
  lemma PaddedNumberParsesBack(n: nat, width: nat)
    ensures AllDigits(PadStart(NatToString(n), width, '0'))
    ensures ParseNat(PadStart(NatToString(n), width, '0')) == n
  {
    var s := NatToString(n);
    if |s| < width {
      ParseNatLeadingZeros(width - |s|, s);
    }
  }

  /** Number of occurrences of `c` in `s`. */
  function Count(s: string, c: char): nat
  {
    if |s| == 0 then 0 else (if s[0] == c then 1 else 0) + Count(s[1..], c)
  }

  /** `parts.join(sep)` for a one-character separator. */
  function Join(parts: seq<string>, sep: char): string
  {
    if |parts| == 0 then ""
    else if |parts| == 1 then parts[0]
    else parts[0] + [sep] + Join(parts[1..], sep)
  }

  /** A join of two or more pieces is the first piece, the separator, and
      the join of the rest. */
  lemma JoinFirst(parts: seq<string>, sep: char)
    requires |parts| >= 2
    ensures Join(parts, sep) == parts[0] + ([sep] + Join(parts[1..], sep))
  {
  }

  /** `s.split(sep)` for a one-character separator: one more piece than there
      are separators, empty pieces kept, no piece holding the separator, and
      joining the pieces back gives `s`. */
  function Split(s: string, sep: char): (parts: seq<string>)
    ensures |parts| == Count(s, sep) + 1
    ensures forall i :: 0 <= i < |parts| ==> sep !in parts[i]
    ensures Join(parts, sep) == s
  {
    if |s| == 0 then [""]
    else
      var rest := Split(s[1..], sep);
      if s[0] == sep then
        var parts := [""] + rest;
        assert parts[1..] == rest;
        assert [sep] + s[1..] == s;
        parts
      else
        var parts := [[s[0]] + rest[0]] + rest[1..];
        assert parts[1..] == rest[1..];
        assert |rest| > 1 ==> Join(rest, sep) == rest[0] + [sep] + Join(rest[1..], sep);
        assert [s[0]] + s[1..] == s;
        parts
  }

  lemma {:induction false} SplitWithoutSeparator(a: string, sep: char)
    requires sep !in a
    ensures Split(a, sep) == [a]
  {
    if |a| > 0 {
      SplitWithoutSeparator(a[1..], sep);
      assert [a[0]] + a[1..] == a;
    }
  }

  lemma {:induction false} SplitAtFirstSeparator(a: string, b: string, sep: char)
    requires sep !in a
    ensures Split(a + [sep] + b, sep) == [a] + Split(b, sep)
  {
    var s := a + [sep] + b;
    if |a| == 0 {
      assert s == [sep] + b;
      assert s[1..] == b;
    } else {
      assert s[1..] == a[1..] + [sep] + b;
      SplitAtFirstSeparator(a[1..], b, sep);
      assert [a[0]] + a[1..] == a;
    }
  }

  /** Joining two non-empty lists of pieces is joining each and putting a
      separator between. */
  lemma {:induction false} JoinConcat(p: seq<string>, q: seq<string>, sep: char)
    requires |p| >= 1 && |q| >= 1
    ensures Join(p + q, sep) == Join(p, sep) + [sep] + Join(q, sep)
  {
    var pq := p + q;
    if |p| == 1 {
      assert pq[1..] == q;
    } else {
      assert pq[1..] == p[1..] + q;
      JoinConcat(p[1..], q, sep);
      JoinFirst(p, sep);
      JoinFirst(pq, sep);
    }
  }

  /** Splitting at a separator splits the text before it and the text
      after it independently. */
  lemma SplitAround(a: string, b: string, sep: char)
    ensures Split(a + [sep] + b, sep) == Split(a, sep) + Split(b, sep)
  {
    var pa, pb := Split(a, sep), Split(b, sep);
    JoinConcat(pa, pb, sep);
    assert forall i :: 0 <= i < |pa + pb| ==> sep !in (pa + pb)[i];
    SplitJoin(pa + pb, sep);
  }

  /** Splitting a join gives the pieces back when no piece holds the separator. */
  lemma {:induction false} SplitJoin(parts: seq<string>, sep: char)
    requires |parts| >= 1
    requires forall i :: 0 <= i < |parts| ==> sep !in parts[i]
    ensures Split(Join(parts, sep), sep) == parts
  {
    if |parts| == 1 {
      SplitWithoutSeparator(parts[0], sep);
    } else {
      SplitJoin(parts[1..], sep);
      SplitAtFirstSeparator(parts[0], Join(parts[1..], sep), sep);
      assert [parts[0]] + parts[1..] == parts;
    }
  }

  /** The characters `String.prototype.trim` removes, restricted to ASCII. */
  predicate IsSpace(c: char)
  {
    c == ' ' || c == '\t' || c == '\n' || c == '\r' || c as int == 11 || c as int == 12
  }

  function TrimStart(s: string): (r: string)
    ensures |r| <= |s| && r == s[|s| - |r|..]
    ensures forall i :: 0 <= i < |s| - |r| ==> IsSpace(s[i])
    ensures |r| > 0 ==> !IsSpace(r[0])
  {
    if |s| > 0 && IsSpace(s[0]) then TrimStart(s[1..]) else s
  }

  function TrimEnd(s: string): (r: string)
    ensures |r| <= |s| && r == s[..|r|]
    ensures forall i :: |r| <= i < |s| ==> IsSpace(s[i])
    ensures |r| > 0 ==> !IsSpace(r[|r| - 1])
  {
    if |s| > 0 && IsSpace(s[|s| - 1]) then TrimEnd(s[..|s| - 1]) else s
  }

  /** `s.trim()`: the slice of `s` between its leading and trailing white space. */
  function Trim(s: string): (r: string)
    ensures |r| <= |s|
    ensures |r| > 0 ==> !IsSpace(r[0]) && !IsSpace(r[|r| - 1])
    ensures var lo := |s| - |TrimStart(s)|;
            && lo + |r| <= |s| && r == s[lo..lo + |r|]
            && (forall i :: 0 <= i < lo ==> IsSpace(s[i]))
            && (forall i :: lo + |r| <= i < |s| ==> IsSpace(s[i]))
  {
    var t := TrimStart(s);
    var r := TrimEnd(t);
    TrimSlices(s, t, r);
    r
  }

  /** Neither starts nor ends with white space. */
  predicate Trimmed(s: string)
  {
    |s| > 0 ==> !IsSpace(s[0]) && !IsSpace(s[|s| - 1])
  }

  /** `trim` leaves a string without surrounding white space as it is. */
  lemma TrimOfTrimmed(s: string)
    requires Trimmed(s)
    ensures Trim(s) == s
  {
  }

  lemma TrimSlices(s: string, t: string, r: string)
    requires |t| <= |s| && t == s[|s| - |t|..]
    requires |r| <= |t| && r == t[..|r|]
    requires forall i :: |r| <= i < |t| ==> IsSpace(t[i])
    ensures var lo := |s| - |t|;
            && r == s[lo..lo + |r|]
            && (forall i :: lo + |r| <= i < |s| ==> IsSpace(s[i]))
  {
    var lo := |s| - |t|;
    assert r == s[lo..lo + |r|];
    forall i | lo + |r| <= i < |s|
      ensures IsSpace(s[i])
    {
      assert s[i] == t[i - lo];
    }
  }

  predicate IsLower(c: char) { 'a' <= c <= 'z' }

  function UpperChar(c: char): (u: char)
    ensures !IsLower(u)
    ensures IsLower(c) ==> u as int == c as int - 32
    ensures !IsLower(c) ==> u == c
  {
    if IsLower(c) then (c as int - 32) as char else c
  }

  /** `s.toUpperCase()` on ASCII: letters a-z become A-Z, all else is kept. */
  function ToUpper(s: string): (r: string)
    ensures |r| == |s|
    ensures forall i :: 0 <= i < |s| ==> r[i] == UpperChar(s[i])
  {
    seq(|s|, i requires 0 <= i < |s| => UpperChar(s[i]))
  }

  /** The longest prefix of `s` made of decimal digits. */
  function LeadingDigits(s: string): (d: string)
    ensures |d| <= |s| && d == s[..|d|] && AllDigits(d)
    ensures |d| < |s| ==> !IsDigit(s[|d|])
  {
    if |s| > 0 && IsDigit(s[0]) then [s[0]] + LeadingDigits(s[1..]) else ""
  }

  /** A digit string followed by text that does not start with a digit is
      read back as exactly that digit string. */
  lemma {:induction false} LeadingDigitsOfNumber(a: string, rest: string)
    requires AllDigits(a)
    requires |rest| > 0 ==> !IsDigit(rest[0])
    ensures LeadingDigits(a + rest) == a
  {
    if |a| == 0 {
      assert a + rest == rest;
    } else {
      assert (a + rest)[1..] == a[1..] + rest;
      LeadingDigitsOfNumber(a[1..], rest);
      assert [a[0]] + a[1..] == a;
    }
  }
}

=== FILE: wrappers.dfy ===
/** The two shapes of data the model passes around: a value that may be
    absent (a nullable column, an empty form field) and the outcome of an
    operation that either resolves with a value or throws an error. */
module Wrappers {

  datatype Option<+T> = None | Some(value: T) {

    /** The present value, or `fallback` when there is none. */
    function ValueOr(fallback: T): T
    {
      if Some? then value else fallback
    }
  }

  datatype Result<+T, +E> = Success(value: T) | Failure(error: E)
}
